=== FILE: README.md ===
# Report assembly of `generate-report.js`, modelled in Dafny

`generate-report.js` merges a project's Markdown files into one document and
then renders that document as a PDF. This model covers the part before the
rendering: the text that ends up in `combinedMarkdown`.

- **Collector** (`getMarkdownFiles`) lists a directory. It keeps the entries
  that end in `.md`, joins each one to the directory and sorts the result.
  Sorting uses the default `Array.prototype.sort` order, which compares UTF-16
  code units.
- **Anchors** builds the anchor identifier of a situation file. It lower-cases
  the name, then replaces every maximal run of characters outside
  `[a-z0-9а-я]` with one `-`.
- **Links** models the three global regular-expression replacements applied to
  the README. The first rewrites `[t](profiles/nadya.md)` and the second
  `[t](profiles/sasha.md)`. The third rewrites `[t](situations/N.md)` to
  `[t](#slug of N)`. Each pass is a left-to-right, non-overlapping scanner. At
  each index it either emits the replacement and resumes after the match, or
  copies one character.
- **Report** assembles the document in three parts, in this order:
  - the rewritten README, or nothing when there is no README;
  - a separator and one block per situation file, or nothing when there are
    none;
  - a separator and one block per profile file, or nothing when there are none.

  A block is an anchor, a heading and the file's content, copied verbatim.

The file system is replaced by inputs (`Report.Tree`):
- the root directory;
- the listing of `situations/` and of `profiles/`, each `None` when the
  directory is missing;
- a map from path to file content.

A README exists when `root + "/README.md"` is a key of the map. A listed file
that is not in the map stands for a `readFileSync` that throws. The assembly
then fails with `Unreadable(path)` for the first such path.

Modules: `Wrappers` (`Option`, `Result`), `Strings`, `Collector`, `Anchors`,
`Links`, `Report`.

Three behaviours of `generate-report.js` a reader may not expect:
- A profile's anchor is `"profile-"` plus the lower-cased stem. The code does
  not collapse it like a situation anchor (generate-report.js:98).
- The heading shows `filename.replace('.md', '')`. That call removes the
  *first* `.md`, which is not always the extension (generate-report.js:78,
  :97). `Strings.RemoveFirstIsNotSuffixStrip` shows `a.mdb.md` becoming
  `ab.md`.
- Files are sorted by their full path, not by bare file name. The shared
  directory prefix makes the two orders agree (`Collector.SortsByName`).

## Model

| member | source | states |
|---|---|---|
| Strings.IndexOf | generate-report.js:78 | the leftmost-occurrence search that `replace('.md', '')` performs finds a position exactly when the pattern occurs, and that position is the leftmost occurrence |
| Strings.RemoveFirst | generate-report.js:78 | `replace('.md', '')` leaves a string without `.md` unchanged; otherwise it cuts out exactly the leftmost occurrence and is 3 characters shorter |
| Strings.RemoveFirstOfExtension | generate-report.js:97 | for a stem containing no `.md`, `(stem + ".md").replace('.md', '')` is the stem |
| Strings.RemoveFirstIsNotSuffixStrip | generate-report.js:78 | `"a.mdb.md".replace('.md', '')` is `"ab.md"`: the inner `.md` goes, the extension stays |
| Strings.FindChar | generate-report.js:56 | returns the index of the first occurrence of a character, and `None` exactly when the character does not occur |
| Strings.EndsWith | generate-report.js:31 | plain predicate, no contract of its own: `file.endsWith(suffix)` is the suffix of the same length being equal to `suffix` |
| Strings.LowerChar | generate-report.js:59 | lower-casing maps A–Z to a–z and А–Я to а–я, maps Ё to ё, and leaves every other character as it is |
| Strings.Lower | generate-report.js:59 | `toLowerCase` keeps the length and lower-cases character by character |
| Strings.LowerIdempotent | generate-report.js:59 | lower-casing twice is lower-casing once |
| Strings.Basename | generate-report.js:77 | `path.basename` holds no `/`, is a suffix of the path, and is preceded by `/` when shorter than the path |
| Strings.Join | generate-report.js:32 | `path.join(dir, file)` is the directory, one `/`, then the entry: the parts sit at those positions and the length is their sum plus one |
| Strings.BasenameOfJoin | generate-report.js:77 | the base name of `path.join(dir, name)` is `name` for a listing entry without `/` |
| Strings.LessEqIsUtf16Order | generate-report.js:33 | the order used for sorting is exactly the lexicographic order of the strings' UTF-16 code units |
| Strings.LessEq | generate-report.js:33 | plain predicate, no contract of its own: the comparison `sort()` uses, code unit by code unit, a proper prefix first; its properties are stated by the `LessEq…` lemmas |
| Strings.LessEqTotal | generate-report.js:33 | any two strings are comparable |
| Strings.LessEqAntisymmetric | generate-report.js:33 | two strings each at most the other are equal, so the sort has no ties |
| Strings.LessEqTransitive | generate-report.js:33 | the sort order is transitive |
| Strings.LessEqCommonPrefix | generate-report.js:32-33 | a common prefix, such as the directory, does not change the order |
| Collector.MarkdownNames | generate-report.js:31 | the filter keeps every entry ending in `.md` as often as it is listed, and no other entry |
| Collector.JoinAll | generate-report.js:32 | the map joins each kept entry to the directory, one for one, in order |
| Collector.Sort | generate-report.js:33 | the result is ascending and a permutation of the input |
| Collector.GetMarkdownFiles | generate-report.js:25-34 | a missing directory gives `[]`; otherwise the result is ascending and a permutation of the `.md` entries joined to the directory |
| Collector.SortedUnique | generate-report.js:33 | there is only one ascending arrangement of a multiset of paths |
| Collector.GetMarkdownFilesIsTheSort | generate-report.js:25-34 | any ascending permutation of the joined `.md` entries is what `getMarkdownFiles` returns |
| Collector.SortIdempotent | generate-report.js:33 | sorting twice gives the order sorting once gives |
| Collector.GetMarkdownFilesMembers | generate-report.js:30-32 | a path is returned exactly when it joins the directory to a listed entry ending in `.md` |
| Collector.GetMarkdownFilesEmpty | generate-report.js:26-31 | nothing is returned exactly when the directory is missing or no entry ends in `.md` |
| Collector.SortsByName | generate-report.js:32-33 | sorting the joined paths is sorting the entry names, then joining them |
| Anchors.Collapse | generate-report.js:59 | the run replacement outputs only class characters and `-`, never two `-` in a row, is no longer than its input, and is empty only for empty input |
| Anchors.CollapseKeepsClassChars | generate-report.js:59 | the class characters `[a-z0-9а-я]` pass through unchanged and in order |
| Anchors.CollapseRun | generate-report.js:59 | a maximal run of characters outside `[a-z0-9а-я]` (one not followed by another such character) becomes exactly one `-`, and collapsing goes on after it |
| Anchors.CollapseClassPrefix | generate-report.js:59 | characters of the class at the front are copied as they are, and collapsing goes on after them |
| Anchors.CollapseSeparated | generate-report.js:59 | two words of class characters with one other character between them come out joined by a single `-` |
| Anchors.Slug | generate-report.js:59 | an anchor holds only `[a-z0-9а-я]` and `-`, is no longer than the name, and is empty only for an empty name |
| Anchors.SlugIsSlug | generate-report.js:59 | an anchor never holds two `-` in a row |
| Anchors.SlugClassChars | generate-report.js:59 | the class characters of an anchor are exactly those of the lower-cased name, in order |
| Anchors.SlugIdempotent | generate-report.js:59 | the slug of a slug is the slug itself |
| Anchors.SlugFixedPoints | generate-report.js:59 | a string is its own slug exactly when it holds only class characters and `-` with no two `-` adjacent |
| Anchors.CollapseFixedPoints | generate-report.js:59 | the run replacement leaves a string unchanged exactly when the string is already a slug |
| Anchors.DatedNameSlug | generate-report.js:78 | the dated name `2024-01-05-incident` is its own anchor |
| Links.LinkText | generate-report.js:56 | `\[([^\]]+)\]` matches at index 0 exactly when some `]` closes a non-empty text, and the match closes at the first `]` |
| Links.SituationName | generate-report.js:58 | `\(situations\/([^)]+)\.md\)` captures a non-empty name without `)`, and the target `(situations/<name>.md)` starts the input |
| Links.MatchTarget | generate-report.js:56-57 | a profile pattern matches exactly when `(profiles/<name>.md)` starts the input |
| Links.MatchAt | generate-report.js:56-58 | a match starts with `[` and is longer than its text and target name |
| Links.MatchAtSound | generate-report.js:56-58 | a match's text is non-empty and holds no `]`, and the input starts with `[`, that text, `]` and the pass's target: `(profiles/<name>.md)` for a profile pass, `(situations/N.md)` with N non-empty and free of `)` for the situation pass |
| Links.MatchAtComplete | generate-report.js:56-58 | the converse of `MatchAtSound`: `[`, a non-empty text without `]`, `]` and a target the pass accepts (its own profile path, or `(situations/N.md)` with N non-empty and free of `)`) is matched, with that text, that target and a length covering both |
| Links.Replacement | generate-report.js:56-60 | the replacement keeps the captured text between `[` and `]` and puts the new target between `(` and `)` |
| Links.HrefText | generate-report.js:56-60 | the new target starts with `#`, so it points inside the document, and is at most 9 characters longer than the name (`#profile-<name>`, or `#` plus the slug) |
| Links.Rewrite | generate-report.js:55-61 | one global `replace` pass never lengthens the text |
| Links.RewriteReadme | generate-report.js:55-61 | the three passes in source order never lengthen the README |
| Links.RewriteUnchangedIff | generate-report.js:55-58 | a pass leaves the text unchanged exactly when no position starts a match |
| Links.RewriteShrinks | generate-report.js:55-58 | a pass that finds a match makes the text strictly shorter |
| Links.RewriteSkipsPrefix | generate-report.js:55-58 | a prefix in which no match starts is copied unchanged, and scanning continues after it |
| Links.PlainTextUnchanged | generate-report.js:55-58 | text without `[` is copied by a pass |
| Links.LinkSurvives | generate-report.js:55-58 | a link whose text holds no `]` and whose target holds no `[` is copied whole when the target does not fit the pass or the text is empty |
| Links.ProfileLinkRewritten | generate-report.js:56 | `[t](profiles/<name>.md)` becomes `[t](#profile-<name>)` under that name's pass |
| Links.SituationLinkRewritten | generate-report.js:58-61 | `[t](situations/N.md)` becomes `[t](#<slug of N>)` under the third pass |
| Links.OtherProfileTargetFails | generate-report.js:56-57 | a profile pattern does not match another profile's target |
| Links.ReadmeUnchanged | generate-report.js:55-61 | a README in which no pass finds a match is left as it is |
| Links.ReadmePlainText | generate-report.js:55-61 | README text without `[` is copied through all three passes |
| Links.ReadmeSituationLink | generate-report.js:55-61 | in the README, `[t](situations/N.md)` becomes `[t](#<slug of N>)`: the text is kept and the target is `#` plus the slug of N |
| Links.ReadmeProfileLink | generate-report.js:55-61 | in the README, `[t](profiles/nadya.md)` and `[t](profiles/sasha.md)` become `[t](#profile-nadya)` and `[t](#profile-sasha)` |
| Links.ReadmeOtherProfileLink | generate-report.js:55-61 | in the README, a link to any other profile whose name holds no `[` and no `)` is left byte for byte |
| Links.ReadmeEmptyTextLink | generate-report.js:55-61 | in the README, a link with empty text `[](x)` whose target x holds no `[` is left byte for byte |
| Links.ReadmeDatedExample | generate-report.js:58-61 | `[see](situations/2024-01-05-incident.md)` becomes `[see](#2024-01-05-incident)` |
| Report.Separator | generate-report.js:38-40 | `addSectionSeparator(title)` is a rule line, then `# ` and the title, framed by blank lines |
| Report.Stem | generate-report.js:97 | the stem is the file name when it holds no `.md`, and otherwise 3 characters shorter |
| Report.SituationAnchorId | generate-report.js:78 | a situation anchor holds only `[a-z0-9а-я]` and `-`, is no longer than the file name, and is empty exactly when the stem is |
| Report.ProfileAnchorId | generate-report.js:98 | a profile anchor is `profile-` followed by the stem lower-cased character by character, with nothing collapsed |
| Report.BlockHead | generate-report.js:81 | a block head (here and at generate-report.js:101 for profiles) opens with `<a id="` and the anchor, then `"></a>`, a line break and the heading prefix, and ends with the stem and a blank line; it is 18 characters longer than anchor, heading prefix and stem together |
| Report.Block | generate-report.js:81 | a block is its anchor-and-heading head followed by the file content, verbatim, and is exactly as long as the two together |
| Report.Blocks | generate-report.js:76-82 | the blocks succeed exactly when every listed file is readable; otherwise the failure names the first unreadable path |
| Report.Section | generate-report.js:73-85 | an empty list adds nothing; a non-empty one adds the separator first, and fails exactly when some listed file is unreadable |
| Report.ReadmePart | generate-report.js:49-66 | a missing README adds nothing |
| Report.Listed | generate-report.js:70-71 | the files of a group come in ascending order |
| Report.Generate | generate-report.js:45-105 | the assembly fails exactly when some listed file is unreadable, and otherwise starts with the README part |
| Report.AppendGroup | generate-report.js:73-85 | the loop appending one group to `combinedMarkdown` gives that group's section, or the failure of its first unreadable file |
| Report.AssembleReport | generate-report.js:45-105 | the step-by-step assembly with `+=` equals `Generate` |
| Report.BlocksAppend | generate-report.js:76-82 | the blocks of two consecutive lists are the blocks of the first, then those of the second |
| Report.BlocksSnoc | generate-report.js:76-82 | reading one more file appends exactly its block |
| Report.BlocksAt | generate-report.js:76-82 | each file's block sits between the blocks of the files before it and after it |
| Report.SectionFailsAt | generate-report.js:80 | the first unreadable file of a group is the one reported |
| Report.OnlyReadme | generate-report.js:73-105 | with no situations and no profiles, the document is the rewritten README alone |
| Report.ContentInSection | generate-report.js:80-81 | each file's content appears verbatim in its section |
| Report.ContentVerbatim | generate-report.js:80-101 | each listed file's content appears verbatim in the document |
| Report.FirstUnreadable | generate-report.js:76-101 | a failed assembly names the first unreadable file, with all situations before all profiles |
| Report.NoReadme | generate-report.js:64-93 | without a README the document is empty or starts with a section separator |
| Report.SituationAnchorMatchesLink | generate-report.js:58-81 | when N is non-empty and holds no `.md`, `[`, `/` or `)`, the README link `[t](situations/N.md)` points at the anchor written for the file `N.md` |
| Report.SituationAnchorMismatch | generate-report.js:58-81 | for a name holding `.md`, link and anchor differ: `[t](situations/a.mdb.md)` targets `#a-mdb` while the file `a.mdb.md` gets the anchor `ab-md` |
| Report.ProfileAnchorMatchesLink | generate-report.js:96-98 | the anchors written for `nadya.md` and `sasha.md` are the targets of the rewritten profile links |
| Report.StemOfFile | generate-report.js:97 | the stem of a listed `name.md` is `name` when `name` holds no `.md` |
| Report.ProfileBlockText | generate-report.js:96-101 | for every path, a profile block is `<a id="profile-<lower-cased stem>">`, then `## Профиль: <stem>`, then the content, where the stem is what `replace('.md', '')` leaves of the file name |
| Report.SituationBlockText | generate-report.js:76-81 | for every path, a situation block is `<a id="<slug of stem>">`, then `## <stem>`, then the content |
| Report.ProfileBlockInnerMd | generate-report.js:96-101 | the profile file `a.mdb.md` gets `<a id="profile-ab.md">` and `## Профиль: ab.md`: the inner `.md` is removed, the extension stays |
| Report.ProfileBlockShape | generate-report.js:96-101 | for `name.md` with no `.md` inside `name`, a profile block is `<a id="profile-<lower-cased name>">`, then `## Профиль: <name>`, then the content |
| Report.SituationBlockShape | generate-report.js:76-81 | for `name.md` with no `.md` inside `name`, a situation block is `<a id="<slug of name>">`, then `## <name>`, then the content |
| Report.ExampleListing | generate-report.js:25-34 | the listing `a.md`, `b.md` gives those two paths in order; a missing profiles directory gives none |
| Report.ExampleDocument | generate-report.js:45-105 | README `# Title`, situations `a.md` and `b.md`, and no profiles give the README, one separator and the two blocks, with no profiles section |

## Left out

- The PDF conversion (`mdToPdf`, its launch, PDF and header/footer options, CSS; generate-report.js:107-147) is a foreign library. It is not modelled.
- `fs.existsSync`, `readdirSync` and `readFileSync` are not modelled. Their results are the inputs of `Report.Tree`, and `readdirSync`'s order is whatever the listing says. Read errors other than a missing file are not modelled.
- The size statistics with `toFixed(2)` (generate-report.js:149-157) are not modelled, because they are floating point and only logged.
- Console output, `process.exit` and the async entry point with its `catch` (generate-report.js:159-170) are process plumbing and are not modelled.
- Strings.Lower: full Unicode `toLowerCase` is not modelled. Only A–Z, А–Я and Ё are mapped, and the map never changes a string's length.
- Strings.Basename: `path.join` and `path.basename` are modelled as `dir + "/" + name` and the text after the last `/`. Normalisation of `..` and doubled separators and platform separators are not modelled.
- Links.Rewrite: its own contract states only that a pass never lengthens the text. What a pass produces is stated by the lemmas on single links and on text without a match.
- Links.ReadmeSituationLink: it requires the name to hold no `[`. Otherwise a link text opened inside the name could be closed by a later `]`. The lemma does not describe that case.
- Report.SituationAnchorMatchesLink: when N itself contains `.md`, the anchor uses the stem `replace` leaves. That is not N, as `Strings.RemoveFirstIsNotSuffixStrip` shows. The model keeps this behaviour as written, and `Report.SituationAnchorMismatch` gives an input where the link misses its anchor. The lemma also requires N to hold no `[`, for the reason given on the `Links.ReadmeSituationLink` line, and no `/`, because a file listed in the situations directory has no `/` in its name.

=== FILE: anchors.dfy ===
/**
 * The anchor identifier of a situation (generate-report.js:59 and :78):
 * `name.toLowerCase().replace(/[^a-z0-9а-я]+/g, '-')`.
 */
module Anchors {
  import opened Strings

  /** A character of the class `[a-z0-9а-я]` (а-я is U+0430..U+044F, so ё is outside). */
  predicate IsSlugChar(c: char) {
    ('a' <= c <= 'z') || ('0' <= c <= '9') || ('\U{0430}' <= c <= '\U{044F}')
  }

  /** Only class characters and '-', and never two '-' in a row. */
  predicate IsSlug(s: string) {
    && (forall i :: 0 <= i < |s| ==> IsSlugChar(s[i]) || s[i] == '-')
    && (forall i :: 0 < i < |s| ==> !(s[i - 1] == '-' && s[i] == '-'))
  }

  /** Drops the maximal leading run of characters outside the class. */
  function SkipRun(s: string): (r: string)
    ensures |r| <= |s| && r == s[|s| - |r|..]
    ensures forall i :: 0 <= i < |s| - |r| ==> !IsSlugChar(s[i])
    ensures r == [] || IsSlugChar(r[0])
  {
    if s == [] || IsSlugChar(s[0]) then s else SkipRun(s[1..])
  }

  /**
   * The global replacement of `[^a-z0-9а-я]+` by '-': scanning left to right,
   * a class character is copied and each maximal run of other characters
   * becomes one '-'.
   */
  function Collapse(s: string): (r: string)
    ensures IsSlug(r)
    ensures |r| <= |s|
    ensures s == [] <==> r == []
    ensures s != [] && IsSlugChar(s[0]) ==> r[0] == s[0]
    ensures s != [] && !IsSlugChar(s[0]) ==> r[0] == '-'
    decreases |s|
  {
    if s == [] then []
    else if IsSlugChar(s[0]) then
      var t := Collapse(s[1..]);
      IsSlugCons(s[0], t);
      [s[0]] + t
    else
      var t := Collapse(SkipRun(s[1..]));
      IsSlugCons('-', t);
      "-" + t
  }

  /** One more character in front keeps a slug a slug, unless it puts two '-' together. */
  lemma IsSlugCons(c: char, t: string)
    requires IsSlug(t) && (IsSlugChar(c) || c == '-')
    requires c == '-' ==> t == [] || t[0] != '-'
    ensures IsSlug([c] + t)
  {
    var r := [c] + t;
    forall i | 0 < i < |r|
      ensures !(r[i - 1] == '-' && r[i] == '-')
    {
      if i > 1 {
        assert r[i - 1] == t[i - 2] && r[i] == t[i - 1];
      }
    }
  }

  /**
   * The anchor identifier of a name: only class characters and '-' (that no
   * two '-' are adjacent is `SlugIsSlug`).
   */
  function Slug(s: string): (r: string)
    ensures forall i :: 0 <= i < |r| ==> IsSlugChar(r[i]) || r[i] == '-'
    ensures |r| <= |s|
    ensures s == [] <==> r == []
  {
    Collapse(Lower(s))
  }

  // ---------------------------------------------------------------------
  // Properties of the slug.

  /** A slug never holds two '-' in a row. */
  lemma SlugIsSlug(s: string)
    ensures IsSlug(Slug(s))
  {
  }

  /** The class characters of `s`, in order. */
  function ClassChars(s: string): string {
    if s == [] then []
    else (if IsSlugChar(s[0]) then [s[0]] else []) + ClassChars(s[1..])
  }

  lemma {:induction false} ClassCharsSkipRun(s: string)
    ensures ClassChars(SkipRun(s)) == ClassChars(s)
    decreases |s|
  {
    if s != [] && !IsSlugChar(s[0]) {
      ClassCharsSkipRun(s[1..]);
    }
  }

  /** Collapsing keeps every class character, in order, and adds no other. */
  lemma {:induction false} CollapseKeepsClassChars(s: string)
    ensures ClassChars(Collapse(s)) == ClassChars(s)
    decreases |s|
  {
    if s != [] {
      var r := Collapse(s);
      if IsSlugChar(s[0]) {
        CollapseKeepsClassChars(s[1..]);
        assert r[1..] == Collapse(s[1..]);
      } else {
        var t := SkipRun(s[1..]);
        CollapseKeepsClassChars(t);
        ClassCharsSkipRun(s[1..]);
        assert r[1..] == Collapse(t);
      }
    }
  }

  /** Skipping a run of characters outside the class lands on what follows the run. */
  lemma {:induction false} SkipRunOf(r: string, b: string)
    requires forall i :: 0 <= i < |r| ==> !IsSlugChar(r[i])
    requires b == [] || IsSlugChar(b[0])
    ensures SkipRun(r + b) == b
    decreases |r|
  {
    if r == [] {
      assert r + b == b;
    } else {
      AppendParts(r, b);
      SkipRunOf(r[1..], b);
    }
  }

  /** A maximal run of characters outside the class becomes exactly one '-'. */
  lemma CollapseRun(r: string, b: string)
    requires r != [] && forall i :: 0 <= i < |r| ==> !IsSlugChar(r[i])
    requires b == [] || IsSlugChar(b[0])
    ensures Collapse(r + b) == "-" + Collapse(b)
  {
    AppendParts(r, b);
    SkipRunOf(r[1..], b);
  }

  /** A class character is copied as it is, and collapsing goes on after it. */
  lemma CollapseClassChar(c: char, b: string)
    requires IsSlugChar(c)
    ensures Collapse([c] + b) == [c] + Collapse(b)
  {
    AppendParts([c], b);
  }

  /** A prefix of class characters is copied as it is. */
  lemma {:induction false} CollapseClassPrefix(a: string, b: string)
    requires forall i :: 0 <= i < |a| ==> IsSlugChar(a[i])
    ensures Collapse(a + b) == a + Collapse(b)
    decreases |a|
  {
    if a != [] {
      AppendParts(a, b);
      CollapseClassChar(a[0], a[1..] + b);
      CollapseClassPrefix(a[1..], b);
      AppendParts(a, Collapse(b));
    }
  }

  /** Two words of class characters with one other character between them are joined by '-'. */
  lemma CollapseSeparated(a: string, c: char, b: string)
    requires forall i :: 0 <= i < |a| ==> IsSlugChar(a[i])
    requires !IsSlugChar(c)
    requires forall i :: 0 <= i < |b| ==> IsSlugChar(b[i])
    ensures Collapse(a + [c] + b) == a + "-" + b
  {
    CollapseClassPrefix(b, []);
    AppendNil(b);
    CollapseRun([c], b);
    AppendAssoc(a, [c], b);
    CollapseClassPrefix(a, [c] + b);
    AppendAssoc(a, "-", b);
  }

  /** The class characters of an anchor are those of the lower-cased name, in order. */
  lemma SlugClassChars(s: string)
    ensures ClassChars(Slug(s)) == ClassChars(Lower(s))
  {
    CollapseKeepsClassChars(Lower(s));
  }

  /** A slug is left alone by collapsing: each '-' is a run of length one. */
  lemma {:induction false} CollapseOfSlug(s: string)
    requires IsSlug(s)
    ensures Collapse(s) == s
    decreases |s|
  {
    if s != [] {
      assert IsSlug(s[1..]);
      CollapseOfSlug(s[1..]);
      if !IsSlugChar(s[0]) {
        assert s[0] == '-';
        assert s[1..] == [] || IsSlugChar(s[1]);
        assert SkipRun(s[1..]) == s[1..];
      }
      assert s == [s[0]] + s[1..];
    }
  }

  /** Collapsing changes nothing exactly when the string is already a slug. */
  lemma CollapseFixedPoints(s: string)
    ensures Collapse(s) == s <==> IsSlug(s)
  {
    if IsSlug(s) {
      CollapseOfSlug(s);
    }
  }

  /** A slug has no upper-case letter, so lower-casing it is the identity. */
  lemma LowerOfSlug(s: string)
    requires IsSlug(s)
    ensures Lower(s) == s
  {
    LowerIdentity(s);
  }

  /** Applying the slug twice equals applying it once. */
  lemma SlugIdempotent(s: string)
    ensures Slug(Slug(s)) == Slug(s)
  {
    var r := Slug(s);
    LowerOfSlug(r);
    CollapseOfSlug(r);
  }

  /** The strings the slug leaves unchanged are exactly the slugs. */
  lemma SlugFixedPoints(s: string)
    ensures Slug(s) == s <==> IsSlug(s)
  {
    if IsSlug(s) {
      LowerOfSlug(s);
      CollapseOfSlug(s);
    }
  }

  /** A dated situation name is already a slug. */
  lemma DatedNameSlug()
    ensures Slug("2024-01-05-incident") == "2024-01-05-incident"
  {
    var s := "2024-01-05-incident";
    assert forall i :: 0 <= i < |s| ==> IsSlugChar(s[i]) || s[i] == '-';
    assert forall i :: 0 < i < |s| ==> !(s[i - 1] == '-' && s[i] == '-');
    SlugFixedPoints(s);
  }
}

=== FILE: collector.dfy ===
/**
 * The Markdown file listing, `getMarkdownFiles` (generate-report.js:25-34): list a
 * directory, keep the entries ending in ".md", join each to the directory and
 * sort the joined paths with the default string order.
 *
 * The directory listing is an input: `None` when the directory does not
 * exist, otherwise the entry names in the order `readdirSync` returns them.
 */
module Collector {
  import opened Wrappers
  import opened Strings

  /** The entries kept by `.filter(file => file.endsWith('.md'))`, in listing order. */
  function MarkdownNames(names: seq<string>): (r: seq<string>)
    ensures forall x :: multiset(r)[x] == if EndsWith(x, ".md") then multiset(names)[x] else 0
  {
    if names == [] then []
    else
      var rest := MarkdownNames(names[1..]);
      assert names == [names[0]] + names[1..];
      if EndsWith(names[0], ".md") then [names[0]] + rest else rest
  }

  /** `.map(file => path.join(dir, file))`. */
  function JoinAll(dir: string, names: seq<string>): (r: seq<string>)
    ensures |r| == |names|
    ensures forall i :: 0 <= i < |names| ==> r[i] == Join(dir, names[i])
  {
    if names == [] then [] else [Join(dir, names[0])] + JoinAll(dir, names[1..])
  }

  /** Ascending in the default string order. */
  predicate Sorted(s: seq<string>) {
    forall i, j :: 0 <= i < j < |s| ==> LessEq(s[i], s[j])
  }

  lemma SortedHeadLeast(s: seq<string>, y: string)
    requires Sorted(s) && y in s
    ensures LessEq(s[0], y)
  {
    var k :| 0 <= k < |s| && s[k] == y;
    if k == 0 {
      LessEqReflexive(y);
    }
  }

  lemma SortedCons(x: string, s: seq<string>)
    requires Sorted(s)
    requires forall y :: y in s ==> LessEq(x, y)
    ensures Sorted([x] + s)
  {
    var t := [x] + s;
    forall i, j | 0 <= i < j < |t|
      ensures LessEq(t[i], t[j])
    {
      if i == 0 {
        assert t[j] in s;
      } else {
        assert t[i] == s[i - 1] && t[j] == s[j - 1];
      }
    }
  }

  /** Every element of a sorted `s` is at least `x` when its head is. */
  lemma SortedAbove(x: string, s: seq<string>)
    requires Sorted(s) && s != [] && LessEq(x, s[0])
    ensures forall y :: y in s ==> LessEq(x, y)
  {
    forall y | y in s
      ensures LessEq(x, y)
    {
      SortedHeadLeast(s, y);
      LessEqTransitive(x, s[0], y);
    }
  }

  /** A lower bound of `s` and of `x` bounds every element of a permutation of `s + [x]`. */
  lemma BoundOfPermutation(h: string, x: string, s: seq<string>, t: seq<string>)
    requires forall y :: y in s ==> LessEq(h, y)
    requires LessEq(h, x)
    requires multiset(t) == multiset(s) + multiset{x}
    ensures forall y :: y in t ==> LessEq(h, y)
  {
    forall y | y in t
      ensures LessEq(h, y)
    {
      assert y in multiset(t);
      if y != x {
        assert y in multiset(s);
      }
    }
  }

  /** One step of insertion sort. */
  function Insert(x: string, s: seq<string>): (r: seq<string>)
    requires Sorted(s)
    ensures Sorted(r)
    ensures multiset(r) == multiset(s) + multiset{x}
    decreases |s|
  {
    if s == [] then [x]
    else if LessEq(x, s[0]) then
      SortedAbove(x, s);
      SortedCons(x, s);
      [x] + s
    else
      LessEqTotal(x, s[0]);
      var t := Insert(x, s[1..]);
      assert s == [s[0]] + s[1..];
      LessEqReflexive(s[0]);
      SortedAbove(s[0], s);
      BoundOfPermutation(s[0], x, s[1..], t);
      SortedCons(s[0], t);
      [s[0]] + t
  }

  /** `.sort()` on strings: an ascending permutation of its input. */
  function Sort(s: seq<string>): (r: seq<string>)
    ensures Sorted(r)
    ensures multiset(r) == multiset(s)
  {
    if s == [] then []
    else
      assert s == [s[0]] + s[1..];
      Insert(s[0], Sort(s[1..]))
  }

  /** `getMarkdownFiles(dir)`. */
  function GetMarkdownFiles(dir: string, listing: Option<seq<string>>): (r: seq<string>)
    ensures listing.None? ==> r == []
    ensures Sorted(r)
    ensures listing.Some? ==> multiset(r) == multiset(JoinAll(dir, MarkdownNames(listing.value)))
  {
    match listing
    case None => []
    case Some(names) => Sort(JoinAll(dir, MarkdownNames(names)))
  }

  // ---------------------------------------------------------------------
  // Properties of the collector.

  /** There is only one ascending arrangement of a multiset of strings. */
  lemma {:induction false} SortedUnique(a: seq<string>, b: seq<string>)
    requires Sorted(a) && Sorted(b)
    requires multiset(a) == multiset(b)
    ensures a == b
    decreases |a|
  {
    if a == [] {
      assert |multiset(b)| == 0;
    } else {
      assert |multiset(b)| == |a|;
      assert a[0] in multiset(b) && b[0] in multiset(a);
      SortedHeadLeast(a, b[0]);
      SortedHeadLeast(b, a[0]);
      LessEqAntisymmetric(a[0], b[0]);
      assert a == [a[0]] + a[1..];
      assert b == [b[0]] + b[1..];
      assert multiset(a) == multiset{a[0]} + multiset(a[1..]);
      assert multiset(b) == multiset{b[0]} + multiset(b[1..]);
      assert a[0] == b[0];
      assert multiset(a[1..]) == multiset(a) - multiset{a[0]};
      assert multiset(b[1..]) == multiset(b) - multiset{b[0]};
      SortedUnique(a[1..], b[1..]);
    }
  }

  /**
   * The collector's result is THE ascending sort of the joined Markdown
   * entries: any ascending arrangement of them equals it.
   */
  lemma GetMarkdownFilesIsTheSort(dir: string, names: seq<string>, s: seq<string>)
    requires Sorted(s)
    requires multiset(s) == multiset(JoinAll(dir, MarkdownNames(names)))
    ensures GetMarkdownFiles(dir, Some(names)) == s
  {
    SortedUnique(GetMarkdownFiles(dir, Some(names)), s);
  }

  /** Sorting twice yields the same order as sorting once. */
  lemma SortIdempotent(s: seq<string>)
    ensures Sort(Sort(s)) == Sort(s)
  {
    SortedUnique(Sort(Sort(s)), Sort(s));
  }

  /** A path is collected exactly when it joins the directory to a listed ".md" entry. */
  lemma GetMarkdownFilesMembers(dir: string, names: seq<string>, p: string)
    ensures p in GetMarkdownFiles(dir, Some(names)) <==>
            exists n :: n in names && EndsWith(n, ".md") && p == Join(dir, n)
  {
    var r := GetMarkdownFiles(dir, Some(names));
    var md := MarkdownNames(names);
    var joined := JoinAll(dir, md);
    assert p in r <==> p in multiset(joined);
    if p in joined {
      var i :| 0 <= i < |joined| && joined[i] == p;
      assert md[i] in multiset(md);
    }
    if exists n :: n in names && EndsWith(n, ".md") && p == Join(dir, n) {
      var n :| n in names && EndsWith(n, ".md") && p == Join(dir, n);
      assert n in multiset(names);
      assert n in multiset(md);
      var i :| 0 <= i < |md| && md[i] == n;
      assert joined[i] == p;
    }
  }

  lemma JoinAllSorted(dir: string, s: seq<string>)
    requires Sorted(s)
    ensures Sorted(JoinAll(dir, s))
  {
    var r := JoinAll(dir, s);
    forall i, j | 0 <= i < j < |r|
      ensures LessEq(r[i], r[j])
    {
      LessEqCommonPrefix(dir + "/", s[i], s[j]);
    }
  }

  lemma {:induction false} JoinAllInsert(dir: string, x: string, s: seq<string>)
    requires Sorted(s)
    ensures Sorted(JoinAll(dir, s))
    ensures JoinAll(dir, Insert(x, s)) == Insert(Join(dir, x), JoinAll(dir, s))
    decreases |s|
  {
    JoinAllSorted(dir, s);
    if s != [] {
      LessEqCommonPrefix(dir + "/", x, s[0]);
      if !LessEq(x, s[0]) {
        assert JoinAll(dir, s)[1..] == JoinAll(dir, s[1..]);
        JoinAllInsert(dir, x, s[1..]);
      }
    }
  }

  lemma {:induction false} JoinAllSort(dir: string, s: seq<string>)
    ensures JoinAll(dir, Sort(s)) == Sort(JoinAll(dir, s))
  {
    if s != [] {
      JoinAllSort(dir, s[1..]);
      JoinAllInsert(dir, s[0], Sort(s[1..]));
      assert JoinAll(dir, s)[1..] == JoinAll(dir, s[1..]);
    }
  }

  /**
   * Sorting the joined paths orders the files by entry name: the directory
   * prefix they all share does not affect the order.
   */
  lemma SortsByName(dir: string, names: seq<string>)
    ensures GetMarkdownFiles(dir, Some(names)) == JoinAll(dir, Sort(MarkdownNames(names)))
  {
    JoinAllSort(dir, MarkdownNames(names));
  }

  /** Nothing is collected exactly when the directory is missing or holds no ".md" entry. */
  lemma GetMarkdownFilesEmpty(dir: string, listing: Option<seq<string>>)
    ensures GetMarkdownFiles(dir, listing) == [] <==>
            listing.None? || forall i :: 0 <= i < |listing.value| ==> !EndsWith(listing.value[i], ".md")
  {
    if listing.Some? {
      var names := listing.value;
      var md := MarkdownNames(names);
      assert |GetMarkdownFiles(dir, listing)| == |md| by {
        assert |multiset(GetMarkdownFiles(dir, listing))| == |multiset(JoinAll(dir, md))|;
      }
      if md != [] {
        assert multiset(md)[md[0]] > 0;
        assert md[0] in multiset(names);
        var i :| 0 <= i < |names| && names[i] == md[0];
        assert EndsWith(names[i], ".md");
      } else {
        forall i | 0 <= i < |names|
          ensures !EndsWith(names[i], ".md")
        {
          assert multiset(names)[names[i]] > 0;
          assert multiset(md)[names[i]] == 0;
        }
      }
    }
  }
}

=== FILE: links.dfy ===
/**
 * Link rewriting in the README (generate-report.js:55-61): three global
 * regular-expression replacements, applied one after the other.
 *
 *   1. `/\[([^\]]+)\]\(profiles\/nadya\.md\)/g`  ->  `[$1](#profile-nadya)`
 *   2. `/\[([^\]]+)\]\(profiles\/sasha\.md\)/g`  ->  `[$1](#profile-sasha)`
 *   3. `/\[([^\]]+)\]\(situations\/([^)]+)\.md\)/g`  ->  `[$1](#` + slug of `$2` + `)`
 *
 * Each pass is a left-to-right scanner: at each index it tries to match; on
 * success it emits the replacement and resumes after the match, otherwise it
 * copies one character and moves on. Because `[^\]]+` cannot contain ']', a
 * match can only close its text at the FIRST ']' after the '['; likewise the
 * situation name runs up to the first ')' and must end in ".md".
 */
module Links {
  import opened Wrappers
  import opened Strings
  import opened Anchors

  /** One replacement pass: a fixed profile name, or the generic situation rule. */
  datatype Pass = ProfilePass(name: string) | SituationPass

  const Nadya := ProfilePass("nadya")
  const Sasha := ProfilePass("sasha")

  /** `k` is the index of the ']' that closes a non-empty link text opened at index 0. */
  predicate ClosesText(s: string, k: int) {
    && 2 <= k < |s| && s[0] == '[' && s[k] == ']'
    && forall j :: 1 <= j < k ==> s[j] != ']'
  }

  /** `\[([^\]]+)\]` at the start of `s`: the index of the closing ']'. */
  function LinkText(s: string): (r: Option<nat>)
    ensures r.Some? ==> ClosesText(s, r.value)
    ensures r.None? ==> forall k :: !ClosesText(s, k)
  {
    if |s| == 0 || s[0] != '[' then None
    else match FindChar(s[1..], ']')
      case None => None
      case Some(j) => if j >= 1 then Some(j + 1) else None
  }

  function ProfilePath(name: string): string {
    "(profiles/" + name + ".md)"
  }

  /**
   * `\(situations\/([^)]+)\.md\)` at the start of `rest`: the captured name,
   * which is everything up to the first ')' minus the ".md" before it.
   */
  function SituationName(rest: string): (r: Option<string>)
    ensures r.Some? ==> r.value != [] && ')' !in r.value
    ensures r.Some? ==> "(situations/" + r.value + ".md)" <= rest
  {
    var open := "(situations/";
    if !(open <= rest) then None
    else
      var after := rest[|open|..];
      match FindChar(after, ')')
      case None => None
      case Some(m) =>
        if m >= 4 && after[m - 3..m] == ".md" then
          SituationTarget(rest, after, m);
          Some(after[..m - 3])
        else None
  }

  /** The captured name, with "(situations/" before it and ".md)" after it, starts `rest`. */
  lemma SituationTarget(rest: string, after: string, m: nat)
    requires "(situations/" <= rest && after == rest[12..]
    requires 4 <= m < |after| && after[m] == ')' && after[m - 3..m] == ".md"
    ensures "(situations/" + after[..m - 3] + ".md)" <= rest
  {
    assert after[..m + 1] == after[..m - 3] + ".md)";
    assert rest[..12 + m + 1] == "(situations/" + after[..m + 1];
  }

  /** Where a rewritten link points. */
  datatype Href = ProfileAnchor(name: string) | SituationAnchor(name: string)

  /** The link target written for an `Href`. */
  function HrefText(h: Href): (r: string)
    ensures r != [] && r[0] == '#'
    ensures |r| <= |h.name| + 9
  {
    match h
    case ProfileAnchor(name) => "#profile-" + name
    case SituationAnchor(name) => "#" + Slug(name)
  }

  /** How many characters the target `(...)` of an `Href` occupies in the source. */
  function TargetLength(h: Href): nat {
    match h
    case ProfileAnchor(name) => |ProfilePath(name)|
    case SituationAnchor(name) => |"(situations/" + name + ".md)"|
  }

  /** The target part of a pattern, matched at the start of `rest` (just after ']'). */
  function MatchTarget(rest: string, p: Pass): (r: Option<Href>)
    ensures r.Some? ==> TargetLength(r.value) <= |rest|
    ensures p.ProfilePass? ==> (r.Some? <==> ProfilePath(p.name) <= rest)
  {
    match p
    case ProfilePass(name) =>
      if ProfilePath(name) <= rest then Some(ProfileAnchor(name)) else None
    case SituationPass =>
      match SituationName(rest)
      case None => None
      case Some(n) => Some(SituationAnchor(n))
  }

  /** A match at the start of the input: its length, the link text and the new target. */
  datatype Link = Link(length: nat, text: string, href: Href)

  /** What a match is replaced with: the same text, the new target. */
  function Replacement(m: Link): (r: string)
    ensures |r| == |m.text| + |HrefText(m.href)| + 4
    ensures r[0] == '[' && r[1..|m.text| + 1] == m.text
    ensures r[|m.text| + 3..|r| - 1] == HrefText(m.href)
  {
    "[" + m.text + "](" + HrefText(m.href) + ")"
  }

  /** One pass's pattern, tried at index 0 of `s`. */
  function MatchAt(s: string, p: Pass): (r: Option<Link>)
    ensures r.Some? ==> |r.value.text| + |r.value.href.name| + 13 < r.value.length <= |s|
    ensures r.Some? ==> s[0] == '['
  {
    match LinkText(s)
    case None => None
    case Some(k) =>
      match MatchTarget(s[k + 1..], p)
      case None => None
      case Some(h) => Some(Link(k + 1 + TargetLength(h), s[1..k], h))
  }

  /** The target text a match consumed, written back from its `Href`. */
  function TargetText(h: Href): (r: string)
    ensures |r| == TargetLength(h)
  {
    match h
    case ProfileAnchor(name) => ProfilePath(name)
    case SituationAnchor(name) => "(situations/" + name + ".md)"
  }

  /**
   * A match is what it claims: a non-empty text without ']' in brackets,
   * followed by the target of the pass, and nothing more.
   */
  lemma MatchAtSound(s: string, p: Pass)
    requires MatchAt(s, p).Some?
    ensures MatchAt(s, p).value.text != [] && ']' !in MatchAt(s, p).value.text
    ensures p.ProfilePass? ==> MatchAt(s, p).value.href == ProfileAnchor(p.name)
    ensures p.SituationPass? ==>
      MatchAt(s, p).value.href.SituationAnchor? && MatchAt(s, p).value.href.name != [] &&
      ')' !in MatchAt(s, p).value.href.name
    ensures s[..MatchAt(s, p).value.length]
         == "[" + MatchAt(s, p).value.text + "]" + TargetText(MatchAt(s, p).value.href)
  {
    MatchAtParts(s, p);
    var rest := s[LinkText(s).value + 1..];
    var h := MatchTarget(rest, p).value;
    MatchAtValue(s, p, rest, h);
    TargetPrefix(rest, p, h);
    LinkPrefix(s, LinkText(s).value, rest, TargetText(h));
  }

  /**
   * The converse of `MatchAtSound`: a non-empty text without ']' in brackets,
   * followed by a target the pass accepts, is matched, with that text and
   * that target.
   */
  lemma MatchAtComplete(s: string, p: Pass, k: nat, h: Href)
    requires ClosesText(s, k) && TargetText(h) <= s[k + 1..]
    requires p.ProfilePass? ==> h == ProfileAnchor(p.name)
    requires p.SituationPass? ==> h.SituationAnchor? && h.name != [] && ')' !in h.name
    ensures MatchAt(s, p) == Some(Link(k + 1 + TargetLength(h), s[1..k], h))
  {
    LinkTextIs(s, k);
    var tail := s[k + 1..];
    TargetAccepted(tail, p, h);
    MatchAtValue(s, p, tail, h);
  }

  /** A target the pass accepts, written at the start of `tail`, is matched there. */
  lemma TargetAccepted(tail: string, p: Pass, h: Href)
    requires TargetText(h) <= tail
    requires p.ProfilePass? ==> h == ProfileAnchor(p.name)
    requires p.SituationPass? ==> h.SituationAnchor? && h.name != [] && ')' !in h.name
    ensures MatchTarget(tail, p) == Some(h)
  {
    if p.SituationPass? {
      var rest := tail[|TargetText(h)|..];
      assert tail == "(situations/" + h.name + ".md)" + rest;
      SituationNameIs(h.name, rest);
    }
  }

  /** A match needs a closed text and the pass's target right after it. */
  lemma MatchAtParts(s: string, p: Pass)
    requires MatchAt(s, p).Some?
    ensures LinkText(s).Some? && MatchTarget(s[LinkText(s).value + 1..], p).Some?
  {
  }

  /**
   * The value of a match, once the text is known to close and the pass's
   * target to follow it.
   */
  lemma MatchAtValue(s: string, p: Pass, rest: string, h: Href)
    requires LinkText(s).Some? && s[LinkText(s).value + 1..] == rest && MatchTarget(rest, p) == Some(h)
    ensures MatchAt(s, p)
         == Some(Link(LinkText(s).value + 1 + TargetLength(h), s[1..LinkText(s).value], h))
  {
  }

  /** `MatchAtValue` for a text known to close at `k`, with the expected link spelled out. */
  lemma MatchAtIs(s: string, p: Pass, k: nat, rest: string, h: Href, m: Link)
    requires LinkText(s) == Some(k) && s[k + 1..] == rest && MatchTarget(rest, p) == Some(h)
    requires m == Link(k + 1 + TargetLength(h), s[1..k], h)
    ensures MatchAt(s, p) == Some(m)
  {
    MatchAtValue(s, p, rest, h);
  }

  /** The target a pass accepts starts the rest of the input. */
  lemma TargetPrefix(tail: string, p: Pass, h: Href)
    requires MatchTarget(tail, p) == Some(h)
    ensures TargetText(h) <= tail
    ensures p.ProfilePass? ==> h == ProfileAnchor(p.name)
    ensures p.SituationPass? ==> h.SituationAnchor? && h.name != [] && ')' !in h.name
  {
  }

  /** A closed text followed by a target is "[" + text + "]" + target. */
  lemma LinkPrefix(s: string, k: nat, tail: string, tgt: string)
    requires ClosesText(s, k) && s[k + 1..] == tail && tgt <= tail
    ensures s[..k + 1 + |tgt|] == "[" + s[1..k] + "]" + tgt
    ensures ']' !in s[1..k]
  {
    assert s[..k + 1 + |tgt|] == s[..k + 1] + tail[..|tgt|];
    assert s[..k + 1] == "[" + s[1..k] + "]";
  }

  /** No position of `s` starts a match of `p`. */
  predicate NoMatch(s: string, p: Pass) {
    forall i :: 0 <= i < |s| ==> MatchAt(s[i..], p).None?
  }

  /** `s.replace(pattern, replacement)` with the global flag. */
  function Rewrite(s: string, p: Pass): (r: string)
    ensures |r| <= |s|
    decreases |s|
  {
    if s == [] then []
    else match MatchAt(s, p)
      case Some(m) => Replacement(m) + Rewrite(s[m.length..], p)
      case None => [s[0]] + Rewrite(s[1..], p)
  }

  /** The three passes over the README, in source order. */
  function RewriteReadme(s: string): (r: string)
    ensures |r| <= |s|
  {
    Rewrite(Rewrite(Rewrite(s, Nadya), Sasha), SituationPass)
  }

  // ---------------------------------------------------------------------
  // Single steps of the scanner.

  /** No match starts at any of the first `n` positions of `s`. */
  predicate NoMatchBefore(s: string, p: Pass, n: nat) {
    forall i :: 0 <= i < n && i < |s| ==> MatchAt(s[i..], p).None?
  }

  lemma RewriteEmpty(p: Pass)
    ensures Rewrite([], p) == []
  {
  }

  lemma RewriteCopies(s: string, p: Pass)
    requires s != [] && MatchAt(s, p).None?
    ensures Rewrite(s, p) == [s[0]] + Rewrite(s[1..], p)
  {
  }

  lemma RewriteReplaces(s: string, p: Pass, m: Link)
    requires s != [] && MatchAt(s, p) == Some(m)
    ensures Rewrite(s, p) == Replacement(m) + Rewrite(s[m.length..], p)
  {
  }

  lemma NoMatchBeforeTail(s: string, p: Pass, n: nat)
    requires s != [] && 0 < n && NoMatchBefore(s, p, n)
    ensures MatchAt(s, p).None?
    ensures NoMatchBefore(s[1..], p, n - 1)
  {
    assert s[0..] == s;
    forall i | 0 <= i < n - 1 && i < |s| - 1
      ensures MatchAt(s[1..][i..], p).None?
    {
      assert s[1..][i..] == s[i + 1..];
    }
  }

  /** A replacement is shorter than the text it replaces. */
  lemma ReplacementShorter(m: Link)
    requires |m.text| + |m.href.name| + 13 < m.length
    ensures |Replacement(m)| < m.length
  {
  }

  // ---------------------------------------------------------------------
  // Properties of one pass.

  /** A prefix in which no match starts is copied unchanged. */
  lemma {:induction false} RewriteSkipsPrefix(a: string, b: string, p: Pass)
    requires NoMatchBefore(a + b, p, |a|)
    ensures Rewrite(a + b, p) == a + Rewrite(b, p)
    decreases |a|
  {
    if a == [] {
      assert a + b == b;
    } else {
      AppendParts(a, b);
      NoMatchBeforeTail(a + b, p, |a|);
      RewriteCopies(a + b, p);
      RewriteSkipsPrefix(a[1..], b, p);
      AppendParts(a, Rewrite(b, p));
    }
  }

  /** A match anywhere makes the pass shrink the text: a replacement is shorter than what it replaces. */
  lemma {:induction false} RewriteShrinks(s: string, p: Pass, i: nat)
    requires i < |s| && MatchAt(s[i..], p).Some?
    ensures |Rewrite(s, p)| < |s|
    decreases i
  {
    match MatchAt(s, p)
    case Some(m) =>
      RewriteReplaces(s, p, m);
      ReplacementShorter(m);
    case None =>
      RewriteCopies(s, p);
      assert s[0..] == s;
      assert s[1..][i - 1..] == s[i..];
      RewriteShrinks(s[1..], p, i - 1);
  }

  /** A pass changes the text exactly when some position starts a match. */
  lemma RewriteUnchangedIff(s: string, p: Pass)
    ensures Rewrite(s, p) == s <==> NoMatch(s, p)
  {
    if NoMatch(s, p) {
      assert s + [] == s;
      RewriteSkipsPrefix(s, [], p);
    } else {
      var i :| 0 <= i < |s| && MatchAt(s[i..], p).Some?;
      RewriteShrinks(s, p, i);
    }
  }

  /** Text without '[' passes through a pass unchanged. */
  lemma PlainTextUnchanged(a: string, b: string, p: Pass)
    requires '[' !in a
    ensures Rewrite(a + b, p) == a + Rewrite(b, p)
  {
    forall i | 0 <= i < |a|
      ensures MatchAt((a + b)[i..], p).None?
    {
      assert (a + b)[i..][0] == a[i];
    }
    RewriteSkipsPrefix(a, b, p);
  }

  /** The closing ']' of a link text is the first one. */
  lemma LinkTextIs(s: string, k: nat)
    requires ClosesText(s, k)
    ensures LinkText(s) == Some(k)
  {
  }

  /** If the first ']' after index 0 is at `e`, a link text can only close there. */
  lemma LinkTextEndsAt(u: string, e: nat)
    requires e < |u| && u[e] == ']'
    requires forall j :: 1 <= j < e ==> u[j] != ']'
    ensures LinkText(u).Some? ==> LinkText(u).value == e
  {
  }

  /** One position of a link `[t]` + `tail` that its pass leaves alone. */
  lemma NoMatchAtLinkPosition(t: string, tail: string, rest: string, p: Pass, i: nat)
    requires ']' !in t && '[' !in tail
    requires t == [] || MatchTarget(tail + rest, p).None?
    requires i < |t| + 2 + |tail|
    ensures MatchAt(("[" + t + "]" + tail + rest)[i..], p).None?
  {
    var s := "[" + t + "]" + tail + rest;
    var u := s[i..];
    var e := |t| + 1 - i;
    if i > |t| + 1 {
      assert u[0] == tail[i - |t| - 2];
    } else if i == |t| + 1 {
      assert u[0] == ']';
    } else {
      assert u[e] == ']';
      assert forall j :: 1 <= j < e ==> u[j] == t[i + j - 1];
      assert u[e + 1..] == tail + rest;
      NoMatchBeforeClose(u, e, p);
    }
  }

  /** A text closed at `e` either is empty or is followed by a target the pass rejects. */
  lemma NoMatchBeforeClose(u: string, e: nat, p: Pass)
    requires e < |u| && u[e] == ']'
    requires forall j :: 1 <= j < e ==> u[j] != ']'
    requires e <= 1 || MatchTarget(u[e + 1..], p).None?
    ensures MatchAt(u, p).None?
  {
    LinkTextEndsAt(u, e);
    NoTargetNoMatch(u, p, u[e + 1..]);
  }

  /** A pass matches nowhere a text closes without the target it wants. */
  lemma NoTargetNoMatch(u: string, p: Pass, rest: string)
    requires LinkText(u).Some? ==> u[LinkText(u).value + 1..] == rest && MatchTarget(rest, p).None?
    ensures MatchAt(u, p).None?
  {
  }

  /**
   * A link `[t]` + `tail` whose text holds no ']' and whose tail holds no '['
   * is copied by a pass whose target does not match after it (or when its text
   * is empty).
   */
  lemma LinkSurvives(t: string, tail: string, rest: string, p: Pass)
    requires ']' !in t && '[' !in tail
    requires t == [] || MatchTarget(tail + rest, p).None?
    ensures Rewrite("[" + t + "]" + tail + rest, p) == "[" + t + "]" + tail + Rewrite(rest, p)
  {
    var link := "[" + t + "]" + tail;
    forall i | 0 <= i < |link|
      ensures MatchAt((link + rest)[i..], p).None?
    {
      NoMatchAtLinkPosition(t, tail, rest, p, i);
    }
    RewriteSkipsPrefix(link, rest, p);
  }

  /** The profile pattern matches a whole link to its own profile. */
  lemma ProfileLinkMatch(name: string, t: string, rest: string)
    requires t != [] && ']' !in t
    ensures MatchAt("[" + t + "](profiles/" + name + ".md)" + rest, ProfilePass(name))
         == Some(Link(|t| + |name| + 16, t, ProfileAnchor(name)))
  {
    var s := "[" + t + "](profiles/" + name + ".md)" + rest;
    var k := |t| + 1;
    assert s[1..k] == t;
    LinkTextIs(s, k);
    assert s[k + 1..] == ProfilePath(name) + rest;
    MatchAtIs(s, ProfilePass(name), k, ProfilePath(name) + rest, ProfileAnchor(name),
              Link(|t| + |name| + 16, t, ProfileAnchor(name)));
  }

  lemma ProfileReplacement(k: nat, t: string, name: string)
    ensures Replacement(Link(k, t, ProfileAnchor(name))) == "[" + t + "](#profile-" + name + ")"
    ensures |"[" + t + "](profiles/" + name + ".md)"| == |t| + |name| + 16
  {
  }

  /** `[t](profiles/<name>.md)` becomes `[t](#profile-<name>)` under its own pass. */
  lemma ProfileLinkRewritten(name: string, t: string, rest: string)
    requires t != [] && ']' !in t
    ensures Rewrite("[" + t + "](profiles/" + name + ".md)" + rest, ProfilePass(name))
         == "[" + t + "](#profile-" + name + ")" + Rewrite(rest, ProfilePass(name))
  {
    var s := "[" + t + "](profiles/" + name + ".md)" + rest;
    var m := Link(|t| + |name| + 16, t, ProfileAnchor(name));
    ProfileLinkMatch(name, t, rest);
    ProfileReplacement(m.length, t, name);
    RewriteReplaces(s, ProfilePass(name), m);
    AppendParts("[" + t + "](profiles/" + name + ".md)", rest);
  }

  /** The situation target captures exactly the name before ".md)". */
  lemma SituationNameIs(n: string, rest: string)
    requires n != [] && ')' !in n
    ensures SituationName("(situations/" + n + ".md)" + rest) == Some(n)
  {
    var tail := "(situations/" + n + ".md)" + rest;
    assert "(situations/" <= tail;
    var after := tail[12..];
    assert after == n + ".md)" + rest;
    assert after[|n| + 3] == ')';
    assert forall j :: 0 <= j < |n| ==> after[j] == n[j];
    FindCharIs(after, ')', |n| + 3);
    assert after[|n|..|n| + 3] == ".md";
    assert after[..|n|] == n;
  }

  /** The situation pattern matches a whole well-formed situation link. */
  lemma SituationLinkMatch(t: string, n: string, rest: string)
    requires t != [] && ']' !in t
    requires n != [] && ')' !in n
    ensures MatchAt("[" + t + "](situations/" + n + ".md)" + rest, SituationPass)
         == Some(Link(|t| + |n| + 18, t, SituationAnchor(n)))
  {
    var s := "[" + t + "](situations/" + n + ".md)" + rest;
    var k := |t| + 1;
    assert s[1..k] == t;
    LinkTextIs(s, k);
    assert s[k + 1..] == "(situations/" + n + ".md)" + rest;
    SituationNameIs(n, rest);
    MatchAtIs(s, SituationPass, k, "(situations/" + n + ".md)" + rest, SituationAnchor(n),
              Link(|t| + |n| + 18, t, SituationAnchor(n)));
  }

  lemma SituationReplacement(k: nat, t: string, n: string)
    ensures Replacement(Link(k, t, SituationAnchor(n))) == "[" + t + "](#" + Slug(n) + ")"
    ensures |"[" + t + "](situations/" + n + ".md)"| == |t| + |n| + 18
  {
  }

  /** `[t](situations/<n>.md)` becomes `[t](#<slug of n>)`; the link text is kept. */
  lemma SituationLinkRewritten(t: string, n: string, rest: string)
    requires t != [] && ']' !in t
    requires n != [] && ')' !in n
    ensures Rewrite("[" + t + "](situations/" + n + ".md)" + rest, SituationPass)
         == "[" + t + "](#" + Slug(n) + ")" + Rewrite(rest, SituationPass)
  {
    var s := "[" + t + "](situations/" + n + ".md)" + rest;
    var m := Link(|t| + |n| + 18, t, SituationAnchor(n));
    SituationLinkMatch(t, n, rest);
    SituationReplacement(m.length, t, n);
    RewriteReplaces(s, SituationPass, m);
    AppendParts("[" + t + "](situations/" + n + ".md)", rest);
  }

  /** Two profile names without ')' only match each other's target when equal. */
  lemma OtherProfileTargetFails(x: string, name: string, rest: string)
    requires ')' !in x && ')' !in name && x != name
    ensures MatchTarget(ProfilePath(x) + rest, ProfilePass(name)).None?
  {
    var a, b := ProfilePath(name), ProfilePath(x) + rest;
    if |name| < |x| {
      assert a[|name| + 13] == ')';
      assert b[|name| + 13] == (x + ".md)")[|name| + 3];
      assert (x + ".md)")[|name| + 3] != ')' by {
        if |name| + 3 < |x| {
          assert (x + ".md)")[|name| + 3] == x[|name| + 3];
        }
      }
    } else if |name| > |x| {
      assert b[|x| + 13] == ')';
      assert a[|x| + 13] == (name + ".md)")[|x| + 3];
      assert (name + ".md)")[|x| + 3] != ')' by {
        if |x| + 3 < |name| {
          assert (name + ".md)")[|x| + 3] == name[|x| + 3];
        }
      }
    } else {
      var j :| 0 <= j < |x| && x[j] != name[j];
      assert a[10 + j] == name[j];
      assert b[10 + j] == x[j];
    }
  }

  /** A target whose second character differs from the pattern's is not matched. */
  lemma TargetMismatch(tail: string, rest: string, p: Pass)
    requires 2 <= |tail|
    requires if p.ProfilePass? then tail[1] != 'p' else tail[1] != 's'
    ensures MatchTarget(tail + rest, p).None?
  {
    assert (tail + rest)[1] == tail[1];
    if p.ProfilePass? {
      assert ProfilePath(p.name)[1] == 'p';
    } else {
      assert "(situations/"[1] == 's';
    }
  }

  // Shapes of the links, split into "[" + text + "]" + target. Each lemma
  // states one regrouping of a link's text, kept apart so that the proofs
  // about whole passes below never re-derive string equalities.

  /** A situation link is its text in brackets followed by its target, which holds no '[' when the name has none. */
  lemma SituationShape(t: string, n: string)
    ensures "[" + t + "](situations/" + n + ".md)" == "[" + t + "]" + ("(situations/" + n + ".md)")
    ensures ("(situations/" + n + ".md)")[1] == 's'
    ensures '[' !in n ==> '[' !in "(situations/" + n + ".md)"
  {
  }

  /** A profile link is its text in brackets followed by its target. */
  lemma ProfileShape(t: string, x: string)
    ensures "[" + t + "](profiles/" + x + ".md)" == "[" + t + "]" + ProfilePath(x)
    ensures ProfilePath(x)[1] == 'p'
    ensures '[' !in x ==> '[' !in ProfilePath(x)
  {
  }

  /** A rewritten profile link is its text in brackets followed by `(#profile-<name>)`. */
  lemma ProfileAnchorShape(t: string, x: string)
    ensures "[" + t + "](#profile-" + x + ")" == "[" + t + "]" + ("(#profile-" + x + ")")
    ensures ("(#profile-" + x + ")")[1] == '#'
    ensures '[' !in x ==> '[' !in "(#profile-" + x + ")"
  {
  }

  /** A link with empty text is an empty text in brackets followed by its target. */
  lemma EmptyTextShape(x: string)
    ensures "[](" + x + ")" == "[" + [] + "]" + ("(" + x + ")")
    ensures '[' !in x ==> '[' !in "(" + x + ")"
  {
  }

  /** The two fixed profile names differ and hold neither '[' nor ')'. */
  lemma FixedNames()
    ensures "nadya" != "sasha" && '[' !in "nadya" && '[' !in "sasha"
    ensures ')' !in "nadya" && ')' !in "sasha"
  {
    assert "nadya"[0] != "sasha"[0];
  }

  // ---------------------------------------------------------------------
  // Properties of the three passes together.

  /** Text in which no pass finds a match is left as it is. */
  lemma ReadmeUnchanged(s: string)
    requires NoMatch(s, Nadya) && NoMatch(s, Sasha) && NoMatch(s, SituationPass)
    ensures RewriteReadme(s) == s
  {
    RewriteUnchangedIff(s, Nadya);
    RewriteUnchangedIff(s, Sasha);
    RewriteUnchangedIff(s, SituationPass);
  }

  /** Text without '[' is copied and the rewriting continues after it. */
  lemma ReadmePlainText(a: string, rest: string)
    requires '[' !in a
    ensures RewriteReadme(a + rest) == a + RewriteReadme(rest)
  {
    PlainTextUnchanged(a, rest, Nadya);
    var r1 := Rewrite(rest, Nadya);
    PlainTextUnchanged(a, r1, Sasha);
    var r2 := Rewrite(r1, Sasha);
    PlainTextUnchanged(a, r2, SituationPass);
  }

  /**
   * `[t](situations/<n>.md)` in the README becomes `[t](#<slug of n>)`: the
   * link text is unchanged and the target is '#' and the slug of the name.
   */
  lemma ReadmeSituationLink(t: string, n: string, rest: string)
    requires t != [] && ']' !in t
    requires n != [] && ')' !in n && '[' !in n
    ensures RewriteReadme("[" + t + "](situations/" + n + ".md)" + rest)
         == "[" + t + "](#" + Slug(n) + ")" + RewriteReadme(rest)
  {
    var tail := "(situations/" + n + ".md)";
    SituationShape(t, n);
    TargetMismatch(tail, rest, Nadya);
    LinkSurvives(t, tail, rest, Nadya);
    var r1 := Rewrite(rest, Nadya);
    TargetMismatch(tail, r1, Sasha);
    LinkSurvives(t, tail, r1, Sasha);
    var r2 := Rewrite(r1, Sasha);
    SituationLinkRewritten(t, n, r2);
  }

  /** A rewritten profile link passes any later pass unchanged. */
  lemma ProfileAnchorSurvives(t: string, x: string, rest: string, p: Pass)
    requires ']' !in t && '[' !in x
    ensures Rewrite("[" + t + "](#profile-" + x + ")" + rest, p)
         == "[" + t + "](#profile-" + x + ")" + Rewrite(rest, p)
  {
    var tail := "(#profile-" + x + ")";
    ProfileAnchorShape(t, x);
    TargetMismatch(tail, rest, p);
    LinkSurvives(t, tail, rest, p);
  }

  /** `[t](profiles/<name>.md)` becomes `[t](#profile-<name>)` for the two fixed names. */
  lemma ReadmeProfileLink(name: string, t: string, rest: string)
    requires name == "nadya" || name == "sasha"
    requires t != [] && ']' !in t
    ensures RewriteReadme("[" + t + "](profiles/" + name + ".md)" + rest)
         == "[" + t + "](#profile-" + name + ")" + RewriteReadme(rest)
  {
    FixedNames();
    if name == "nadya" {
      ProfileLinkRewritten(name, t, rest);
      var r1 := Rewrite(rest, Nadya);
      ProfileAnchorSurvives(t, name, r1, Sasha);
      var r2 := Rewrite(r1, Sasha);
      ProfileAnchorSurvives(t, name, r2, SituationPass);
    } else {
      ProfileShape(t, name);
      OtherProfileTargetFails(name, "nadya", rest);
      LinkSurvives(t, ProfilePath(name), rest, Nadya);
      var r1 := Rewrite(rest, Nadya);
      ProfileLinkRewritten(name, t, r1);
      var r2 := Rewrite(r1, Sasha);
      ProfileAnchorSurvives(t, name, r2, SituationPass);
    }
  }

  /**
   * A link to any other profile is left unchanged by all three passes. A name
   * holding ')' is left out: a Markdown link target ends at the first ')', so
   * such a text is not a link to that profile in the first place. A name
   * holding '[' is left out too: a '[' inside the target can open a link that
   * a pass rewrites, as in the name `[q](profiles/nadya`.
   */
  lemma ReadmeOtherProfileLink(t: string, x: string, rest: string)
    requires ']' !in t
    requires '[' !in x && ')' !in x && x != "nadya" && x != "sasha"
    ensures RewriteReadme("[" + t + "](profiles/" + x + ".md)" + rest)
         == "[" + t + "](profiles/" + x + ".md)" + RewriteReadme(rest)
  {
    var tail := ProfilePath(x);
    FixedNames();
    ProfileShape(t, x);
    OtherProfileTargetFails(x, "nadya", rest);
    LinkSurvives(t, tail, rest, Nadya);
    var r1 := Rewrite(rest, Nadya);
    OtherProfileTargetFails(x, "sasha", r1);
    LinkSurvives(t, tail, r1, Sasha);
    var r2 := Rewrite(r1, Sasha);
    TargetMismatch(tail, r2, SituationPass);
    LinkSurvives(t, tail, r2, SituationPass);
  }

  /**
   * A link with empty text `[](...)` is left unchanged by all three passes,
   * provided no '[' inside the target opens a link of its own.
   */
  lemma ReadmeEmptyTextLink(x: string, rest: string)
    requires '[' !in x
    ensures RewriteReadme("[](" + x + ")" + rest) == "[](" + x + ")" + RewriteReadme(rest)
  {
    var tail := "(" + x + ")";
    EmptyTextShape(x);
    LinkSurvives([], tail, rest, Nadya);
    var r1 := Rewrite(rest, Nadya);
    LinkSurvives([], tail, r1, Sasha);
    var r2 := Rewrite(r1, Sasha);
    LinkSurvives([], tail, r2, SituationPass);
  }

  /** The dated example link, split into the parts `ReadmeSituationLink` names. */
  lemma DatedExampleInput()
    ensures "[see](situations/2024-01-05-incident.md)"
         == "[" + "see" + "](situations/" + "2024-01-05-incident" + ".md)" + ""
  {
  }

  /** The rewritten dated link, assembled from the same parts. */
  lemma DatedExampleOutput()
    ensures "[" + "see" + "](#" + "2024-01-05-incident" + ")" + "" == "[see](#2024-01-05-incident)"
    ensures ']' !in "see" && ')' !in "2024-01-05-incident" && '[' !in "2024-01-05-incident"
  {
  }

  /** The dated example: `[see](situations/2024-01-05-incident.md)`. */
  lemma ReadmeDatedExample()
    ensures RewriteReadme("[see](situations/2024-01-05-incident.md)") == "[see](#2024-01-05-incident)"
  {
    DatedExampleInput();
    DatedExampleOutput();
    ReadmeSituationLink("see", "2024-01-05-incident", "");
    DatedNameSlug();
    RewriteEmpty(Nadya);
    RewriteEmpty(Sasha);
    RewriteEmpty(SituationPass);
  }
}

=== FILE: report.dfy ===
/*
 * Assembly of the combined Markdown document (`generateReport` up to the
 * PDF conversion): the rewritten README, then one section of situation files,
 * then one section of profile files.
 */
module Report {
  import opened Wrappers
  import opened Strings
  import opened Collector
  import opened Anchors
  import opened Links

  /** The only error of the assembly: a listed file that cannot be read. */
  datatype ReadError = Unreadable(path: string)

  /**
   * What the file system supplies: the project root, the listing of each of
   * the two sub-directories (`None` when the directory does not exist) and the
   * contents of the readable files, keyed by path.
   */
  datatype Tree = Tree(
    root: string,
    situations: Option<seq<string>>,
    profiles: Option<seq<string>>,
    files: map<string, string>)

  /** The two groups of files, in the order they are appended. */
  datatype Group = Situations | Profiles

  /** "📁 Записанные ситуации" */
  const SituationsTitle: string :=
    "\U{1F4C1} \U{0417}\U{0430}\U{043F}\U{0438}\U{0441}\U{0430}\U{043D}\U{043D}\U{044B}\U{0435} \U{0441}\U{0438}\U{0442}\U{0443}\U{0430}\U{0446}\U{0438}\U{0438}"

  /** "👥 Профили участников" */
  const ProfilesTitle: string :=
    "\U{1F465} \U{041F}\U{0440}\U{043E}\U{0444}\U{0438}\U{043B}\U{0438} \U{0443}\U{0447}\U{0430}\U{0441}\U{0442}\U{043D}\U{0438}\U{043A}\U{043E}\U{0432}"

  /** "## Профиль: " */
  const ProfileHeading: string :=
    "## \U{041F}\U{0440}\U{043E}\U{0444}\U{0438}\U{043B}\U{044C}: "

  function Title(g: Group): string {
    match g
    case Situations => SituationsTitle
    case Profiles => ProfilesTitle
  }

  function Directory(root: string, g: Group): string {
    match g
    case Situations => Join(root, "situations")
    case Profiles => Join(root, "profiles")
  }

  function ReadmePath(root: string): string {
    Join(root, "README.md")
  }

  /** `addSectionSeparator(title)`: a rule, then the title as a level-one heading. */
  function Separator(title: string): (r: string)
    ensures |r| == |title| + 11
    ensures r[..9] == "\n\n---\n\n# " && r[|r| - 2..] == "\n\n"
    ensures r[9..|r| - 2] == title
  {
    "\n\n---\n\n# " + title + "\n\n"
  }

  /** `filename.replace('.md', '')`: only the first ".md" is removed. */
  function Stem(filename: string): (r: string)
    ensures !Contains(filename, ".md") ==> r == filename
    ensures Contains(filename, ".md") ==> |r| == |filename| - 3
  {
    RemoveFirst(filename, ".md")
  }

  /** The `id` of a situation block: the slug of the stem. */
  function SituationAnchorId(filename: string): (r: string)
    ensures forall i :: 0 <= i < |r| ==> IsSlugChar(r[i]) || r[i] == '-'
    ensures |r| <= |filename|
    ensures Stem(filename) == [] <==> r == []
  {
    Slug(Stem(filename))
  }

  /** The `id` of a profile block: "profile-" and the lower-cased stem, not collapsed. */
  function ProfileAnchorId(filename: string): (r: string)
    ensures |r| == 8 + |Stem(filename)|
    ensures r[..8] == "profile-"
    ensures forall i :: 8 <= i < |r| ==> r[i] == LowerChar(Stem(filename)[i - 8])
  {
    "profile-" + Lower(Stem(filename))
  }

  function AnchorId(g: Group, filename: string): string {
    match g
    case Situations => SituationAnchorId(filename)
    case Profiles => ProfileAnchorId(filename)
  }

  function Heading(g: Group): string {
    match g
    case Situations => "## "
    case Profiles => ProfileHeading
  }

  /** What precedes a file's content: an anchor, then a heading with the stem. */
  function BlockHead(g: Group, filename: string): (r: string)
    ensures |r| == |AnchorId(g, filename)| + |Heading(g)| + |Stem(filename)| + 18
    ensures r[..9] == "\n\n<a id=\"" && r[9..9 + |AnchorId(g, filename)|] == AnchorId(g, filename)
    ensures r[9 + |AnchorId(g, filename)|..16 + |AnchorId(g, filename)| + |Heading(g)|]
         == "\"></a>\n" + Heading(g)
    ensures EndsWith(r, Stem(filename) + "\n\n")
  {
    HeadShape(AnchorId(g, filename), Heading(g), Stem(filename));
    "\n\n<a id=\"" + AnchorId(g, filename) + "\"></a>\n" + Heading(g) + Stem(filename) + "\n\n"
  }

  /** Where the id, the heading and the stem sit in a block head, for any of them. */
  lemma HeadShape(id: string, heading: string, stem: string)
    ensures var r := "\n\n<a id=\"" + id + "\"></a>\n" + heading + stem + "\n\n";
      && |r| == |id| + |heading| + |stem| + 18
      && r[..9] == "\n\n<a id=\"" && r[9..9 + |id|] == id
      && r[9 + |id|..16 + |id| + |heading|] == "\"></a>\n" + heading
      && EndsWith(r, stem + "\n\n")
  {
    var r := "\n\n<a id=\"" + id + "\"></a>\n" + heading + stem + "\n\n";
    var tail := "\"></a>\n" + heading;
    assert r == "\n\n<a id=\"" + id + tail + (stem + "\n\n");
    assert r[9..9 + |id|] == id;
    assert r[9 + |id|..16 + |id| + |heading|] == tail;
    assert r[|r| - |stem| - 2..] == stem + "\n\n";
  }

  /** The block appended for one file: its head, then the content verbatim. */
  function Block(g: Group, path: string, content: string): (r: string)
    ensures |r| == |BlockHead(g, Basename(path))| + |content|
    ensures BlockHead(g, Basename(path)) <= r
    ensures EndsWith(r, content)
  {
    BlockHead(g, Basename(path)) + content
  }

  /** All listed paths up to `n` can be read. */
  predicate Readable(paths: seq<string>, files: map<string, string>, n: int) {
    forall j :: 0 <= j < n && j < |paths| ==> paths[j] in files
  }

  /** `e` is the first path of `paths` missing from `files`. */
  predicate FirstMissing(paths: seq<string>, files: map<string, string>, e: string) {
    exists i :: 0 <= i < |paths| && paths[i] == e && paths[i] !in files && Readable(paths, files, i)
  }

  /**
   * The blocks of a list of paths, read in order; the first path that cannot
   * be read stops the assembly, as the exception thrown by `readFileSync` does.
   */
  function Blocks(g: Group, paths: seq<string>, files: map<string, string>): (r: Result<string, ReadError>)
    ensures r.Success? <==> Readable(paths, files, |paths|)
    ensures r.Failure? ==> FirstMissing(paths, files, r.error.path)
    decreases |paths|
  {
    if paths == [] then Success("")
    else if paths[0] !in files then Failure(Unreadable(paths[0]))
    else
      match Blocks(g, paths[1..], files)
      case Failure(e) =>
        var i :| 0 <= i < |paths| - 1 && paths[1..][i] == e.path
                 && paths[1..][i] !in files && Readable(paths[1..], files, i);
        assert Readable(paths, files, i + 1);
        Failure(e)
      case Success(rest) =>
        Success(Block(g, paths[0], files[paths[0]]) + rest)
  }

  /** A group's section: nothing for an empty list, else the separator and the blocks. */
  function Section(g: Group, paths: seq<string>, files: map<string, string>): (r: Result<string, ReadError>)
    ensures r.Success? <==> Readable(paths, files, |paths|)
    ensures r.Failure? ==> FirstMissing(paths, files, r.error.path)
    ensures paths == [] ==> r == Success("")
    ensures paths != [] && r.Success? ==> Separator(Title(g)) <= r.value
  {
    if paths == [] then Success("")
    else
      match Blocks(g, paths, files)
      case Failure(e) => Failure(e)
      case Success(b) => Success(Separator(Title(g)) + b)
  }

  /** The README part: the rewritten README, or nothing when there is none. */
  function ReadmePart(t: Tree): (r: string)
    ensures ReadmePath(t.root) !in t.files ==> r == ""
  {
    if ReadmePath(t.root) in t.files then RewriteReadme(t.files[ReadmePath(t.root)]) else ""
  }

  /** The paths `getMarkdownFiles` returns for a group. */
  function Listed(t: Tree, g: Group): (r: seq<string>)
    ensures Sorted(r)
  {
    match g
    case Situations => GetMarkdownFiles(Directory(t.root, g), t.situations)
    case Profiles => GetMarkdownFiles(Directory(t.root, g), t.profiles)
  }

  /** `combinedMarkdown` at the end of the assembly. */
  function Generate(t: Tree): (r: Result<string, ReadError>)
    ensures r.Success? <==> Readable(Listed(t, Situations), t.files, |Listed(t, Situations)|)
                            && Readable(Listed(t, Profiles), t.files, |Listed(t, Profiles)|)
    ensures r.Success? ==> ReadmePart(t) <= r.value
  {
    match Section(Situations, Listed(t, Situations), t.files)
    case Failure(e) => Failure(e)
    case Success(s) =>
      match Section(Profiles, Listed(t, Profiles), t.files)
      case Failure(e) => Failure(e)
      case Success(p) =>
        Success(ReadmePart(t) + s + p)
  }

  // ---------------------------------------------------------------------
  // The assembly as the source writes it: appending to `combinedMarkdown`.

  /** Appends one group to `combined`: the loop over `getMarkdownFiles` at lines 73-85 or 92-105. */
  method AppendGroup(g: Group, paths: seq<string>, files: map<string, string>, combined: string)
    returns (r: Result<string, ReadError>)
    ensures Section(g, paths, files).Failure? ==> r == Section(g, paths, files)
    ensures Section(g, paths, files).Success? ==> r == Success(combined + Section(g, paths, files).value)
  {
    if |paths| == 0 {
      AppendNil(combined);
      return Success(combined);
    }
    var start := combined + Separator(Title(g));
    var acc := start;
    var i := 0;
    AppendNil(start);
    while i < |paths|
      invariant 0 <= i <= |paths|
      invariant Readable(paths, files, i)
      invariant Blocks(g, paths[..i], files).Success?
      invariant acc == start + Blocks(g, paths[..i], files).value
    {
      var file := paths[i];
      if file !in files {
        SectionFailsAt(g, paths, files, i);
        return Failure(Unreadable(file));
      }
      BlocksSnoc(g, paths, files, i);
      AppendAssoc(start, Blocks(g, paths[..i], files).value, Block(g, file, files[file]));
      acc := acc + Block(g, file, files[file]);
      i := i + 1;
    }
    TakeAll(paths);
    AppendAssoc(combined, Separator(Title(g)), Blocks(g, paths, files).value);
    return Success(acc);
  }

  /** `generateReport` from line 45 to line 105: the value of `combinedMarkdown`. */
  method AssembleReport(t: Tree) returns (r: Result<string, ReadError>)
    ensures r == Generate(t)
  {
    var combined := "";
    var readmePath := ReadmePath(t.root);
    if readmePath in t.files {
      AppendNil(RewriteReadme(t.files[readmePath]));
      combined := combined + RewriteReadme(t.files[readmePath]);
    }
    assert combined == ReadmePart(t);
    var situationFiles := GetMarkdownFiles(Join(t.root, "situations"), t.situations);
    var afterSituations := AppendGroup(Situations, situationFiles, t.files, combined);
    if afterSituations.Failure? {
      return afterSituations;
    }
    var profileFiles := GetMarkdownFiles(Join(t.root, "profiles"), t.profiles);
    r := AppendGroup(Profiles, profileFiles, t.files, afterSituations.value);
  }

  // ---------------------------------------------------------------------
  // Properties of the assembly.

  /** Blocks of a concatenated list are the blocks of each part, in order. */
  lemma {:induction false} BlocksAppend(g: Group, a: seq<string>, b: seq<string>, files: map<string, string>)
    requires Readable(a + b, files, |a + b|)
    ensures Blocks(g, a, files).Success? && Blocks(g, b, files).Success?
    ensures Blocks(g, a + b, files).value == Blocks(g, a, files).value + Blocks(g, b, files).value
    decreases |a|
  {
    AppendParts(a, b);
    if a != [] {
      BlocksAppend(g, a[1..], b, files);
      AppendAssoc(Block(g, a[0], files[a[0]]), Blocks(g, a[1..], files).value, Blocks(g, b, files).value);
    }
  }

  /** Reading one more file appends its block. */
  lemma BlocksSnoc(g: Group, paths: seq<string>, files: map<string, string>, i: nat)
    requires i < |paths| && Readable(paths, files, i + 1)
    ensures Blocks(g, paths[..i], files).Success? && Blocks(g, paths[..i + 1], files).Success?
    ensures Blocks(g, paths[..i + 1], files).value
         == Blocks(g, paths[..i], files).value + Block(g, paths[i], files[paths[i]])
  {
    SplitAt(paths, i);
    assert forall j :: 0 <= j <= i ==> paths[..i + 1][j] == paths[j];
    BlocksAppend(g, paths[..i], [paths[i]], files);
    AppendNil(Block(g, paths[i], files[paths[i]]));
  }

  /** The first unreadable file is the one reported. */
  lemma SectionFailsAt(g: Group, paths: seq<string>, files: map<string, string>, i: nat)
    requires i < |paths| && Readable(paths, files, i) && paths[i] !in files
    ensures Section(g, paths, files) == Failure(Unreadable(paths[i]))
  {
  }

  /**
   * Every listed file gets its block, at its place in the list: the blocks
   * before it, its own block with the content verbatim, the blocks after it.
   */
  lemma BlocksAt(g: Group, paths: seq<string>, files: map<string, string>, i: nat)
    requires Blocks(g, paths, files).Success? && i < |paths|
    ensures paths[i] in files
    ensures Blocks(g, paths, files).value
         == Blocks(g, paths[..i], files).value + Block(g, paths[i], files[paths[i]])
            + Blocks(g, paths[i + 1..], files).value
  {
    var p := paths[i];
    SplitAt(paths, i);
    BlocksAppend(g, paths[..i], [p] + paths[i + 1..], files);
    BlocksAppend(g, [p], paths[i + 1..], files);
    AppendAssoc(Blocks(g, paths[..i], files).value, Block(g, p, files[p]), Blocks(g, paths[i + 1..], files).value);
  }

  /** With neither situations nor profiles, the document is the rewritten README alone. */
  lemma OnlyReadme(t: Tree)
    requires Listed(t, Situations) == [] && Listed(t, Profiles) == []
    ensures Generate(t) == Success(ReadmePart(t))
  {
    AppendNil(ReadmePart(t));
  }

  /**
   * The document is the README part, then the situations section, then the
   * profiles section. This unfolds `Generate`; the independent loop-shaped
   * partner it is compared with is `AssembleReport`.
   */
  lemma GenerateParts(t: Tree)
    requires Generate(t).Success?
    ensures Section(Situations, Listed(t, Situations), t.files).Success?
    ensures Section(Profiles, Listed(t, Profiles), t.files).Success?
    ensures Generate(t).value == ReadmePart(t)
                                 + Section(Situations, Listed(t, Situations), t.files).value
                                 + Section(Profiles, Listed(t, Profiles), t.files).value
  {
  }

  /**
   * An empty group adds nothing, not even its separator; a non-empty group
   * adds one separator and its blocks. This unfolds `Section`; the
   * statement-by-statement partner it is compared with is `AppendGroup`.
   */
  lemma SectionShape(g: Group, paths: seq<string>, files: map<string, string>)
    requires Readable(paths, files, |paths|)
    ensures paths == [] ==> Section(g, paths, files).value == ""
    ensures paths != [] ==> Section(g, paths, files).value == Separator(Title(g)) + Blocks(g, paths, files).value
  {
  }

  /** The content of every file of a readable group appears verbatim in its section. */
  lemma ContentInSection(g: Group, paths: seq<string>, files: map<string, string>, i: nat)
    requires Readable(paths, files, |paths|) && i < |paths|
    ensures Contains(Section(g, paths, files).value, files[paths[i]])
  {
    var p := paths[i];
    var c := files[p];
    BlocksAt(g, paths, files, i);
    var before := Blocks(g, paths[..i], files).value;
    var after := Blocks(g, paths[i + 1..], files).value;
    ContainsSelf(c);
    ContainsExtend(c, c, BlockHead(g, Basename(p)));
    ContainsExtend(Block(g, p, c), c, before);
    ContainsExtend(before + Block(g, p, c), c, after);
    ContainsExtend(Blocks(g, paths, files).value, c, Separator(Title(g)));
  }

  /** The content of every listed file appears verbatim in the document. */
  lemma ContentVerbatim(t: Tree, g: Group, i: nat)
    requires Generate(t).Success? && i < |Listed(t, g)|
    ensures Listed(t, g)[i] in t.files
    ensures Contains(Generate(t).value, t.files[Listed(t, g)[i]])
  {
    var c := t.files[Listed(t, g)[i]];
    GenerateParts(t);
    ContentInSection(g, Listed(t, g), t.files, i);
    var s := Section(Situations, Listed(t, Situations), t.files).value;
    var q := Section(Profiles, Listed(t, Profiles), t.files).value;
    if g == Situations {
      ContainsExtend(s, c, ReadmePart(t));
      ContainsExtend(ReadmePart(t) + s, c, q);
    } else {
      ContainsExtend(q, c, ReadmePart(t) + s);
    }
  }

  lemma FirstMissingAppend(a: seq<string>, b: seq<string>, files: map<string, string>, e: string)
    requires FirstMissing(a, files, e) || (Readable(a, files, |a|) && FirstMissing(b, files, e))
    ensures FirstMissing(a + b, files, e)
  {
    var c := a + b;
    if FirstMissing(a, files, e) {
      var i :| 0 <= i < |a| && a[i] == e && a[i] !in files && Readable(a, files, i);
      forall j | 0 <= j < i
        ensures c[j] in files
      {
        assert c[j] == a[j];
      }
      assert c[i] == a[i];
    } else {
      var i :| 0 <= i < |b| && b[i] == e && b[i] !in files && Readable(b, files, i);
      forall j | 0 <= j < |a| + i
        ensures c[j] in files
      {
        if j < |a| {
          assert c[j] == a[j];
        } else {
          assert c[j] == b[j - |a|];
        }
      }
      assert c[|a| + i] == b[i];
    }
  }

  lemma GenerateFails(t: Tree)
    requires Generate(t).Failure?
    ensures var s := Listed(t, Situations);
            FirstMissing(s, t.files, Generate(t).error.path)
            || (Readable(s, t.files, |s|) && FirstMissing(Listed(t, Profiles), t.files, Generate(t).error.path))
  {
  }

  /** The failing path is the first unreadable one, situations before profiles. */
  lemma FirstUnreadable(t: Tree)
    requires Generate(t).Failure?
    ensures FirstMissing(Listed(t, Situations) + Listed(t, Profiles), t.files, Generate(t).error.path)
  {
    GenerateFails(t);
    FirstMissingAppend(Listed(t, Situations), Listed(t, Profiles), t.files, Generate(t).error.path);
  }

  /** Without a README the document is empty or starts with a section separator. */
  lemma NoReadme(t: Tree)
    requires ReadmePath(t.root) !in t.files && Generate(t).Success?
    ensures Generate(t).value == "" || "\n\n---\n\n# " <= Generate(t).value
  {
    GenerateParts(t);
    var s, p := Listed(t, Situations), Listed(t, Profiles);
    if s != [] {
      assert "\n\n---\n\n# " <= Separator(Title(Situations));
    } else if p != [] {
      assert "\n\n---\n\n# " <= Separator(Title(Profiles));
    }
  }

  // ---------------------------------------------------------------------
  // Anchors and links.

  /**
   * The situation file `n.md` gets the anchor the README link
   * `[t](situations/n.md)` is rewritten to, when `n` holds no ".md".
   */
  lemma SituationAnchorMatchesLink(root: string, n: string, t: string, rest: string)
    requires n != [] && '/' !in n && ')' !in n && '[' !in n && !Contains(n, ".md")
    requires t != [] && ']' !in t
    ensures var path := Join(Directory(root, Situations), n + ".md");
            RewriteReadme("[" + t + "](situations/" + n + ".md)" + rest)
            == "[" + t + "](#" + SituationAnchorId(Basename(path)) + ")" + RewriteReadme(rest)
  {
    var path := Join(Directory(root, Situations), n + ".md");
    assert '/' !in n + ".md";
    BasenameOfJoin(Directory(root, Situations), n + ".md");
    RemoveFirstOfExtension(n);
    ReadmeSituationLink(t, n, rest);
  }

  /**
   * When the situation name itself holds ".md", link and anchor part ways:
   * `[t](situations/a.mdb.md)` is rewritten to `#a-mdb`, yet the file
   * `a.mdb.md` gets the anchor `ab-md`, because only the first ".md" of the
   * file name is removed before the slug is taken.
   */
  lemma SituationAnchorMismatch()
    ensures Slug("a.mdb") == "a-mdb"
    ensures SituationAnchorId("a.mdb.md") == "ab-md"
  {
    RemoveFirstIsNotSuffixStrip();
    MismatchLinkSlug();
    MismatchFileSlug();
  }

  /** The slug of the link's name `a.mdb`: the '.' becomes a '-'. */
  lemma MismatchLinkSlug()
    ensures Slug("a.mdb") == "a-mdb"
  {
    MismatchLower();
    MismatchParts();
    CollapseSeparated("a", '.', "mdb");
  }

  /** The slug of the stem `ab.md` that `replace` leaves of `a.mdb.md`. */
  lemma MismatchFileSlug()
    ensures Slug("ab.md") == "ab-md"
  {
    MismatchLower();
    MismatchParts();
    CollapseSeparated("ab", '.', "md");
  }

  /** Neither name has an upper-case letter. */
  lemma MismatchLower()
    ensures Lower("a.mdb") == "a.mdb" && Lower("ab.md") == "ab.md"
  {
    LowerIdentity("a.mdb");
    LowerIdentity("ab.md");
  }

  /** The names of `SituationAnchorMismatch`, split at the '.' that becomes '-'. */
  lemma MismatchParts()
    ensures "a.mdb" == "a" + ['.'] + "mdb" && "a-mdb" == "a" + "-" + "mdb"
    ensures "ab.md" == "ab" + ['.'] + "md" && "ab-md" == "ab" + "-" + "md"
  {
  }

  /** The stem of a listed file `name.md` is `name` when `name` holds no ".md". */
  lemma StemOfFile(path: string, name: string)
    requires Basename(path) == name + ".md" && !Contains(name, ".md")
    ensures Stem(Basename(path)) == name
  {
    RemoveFirstOfExtension(name);
  }

  lemma FixedProfileName(name: string)
    requires name == "nadya" || name == "sasha"
    ensures '/' !in name + ".md" && !Contains(name, ".md") && Lower(name) == name
  {
    assert '.' !in name;
    forall k | 0 <= k <= |name|
      ensures !OccursAt(name, ".md", k)
    {
      if k + 3 <= |name| {
        assert name[k..k + 3][0] == name[k];
      }
    }
    LowerIdentity(name);
  }

  /** Regroups the "profile-" prefix inside the link target and inside the block head. */
  lemma ProfilePrefixText(x: string)
    ensures "#" + ("profile-" + x) == "#profile-" + x
    ensures "\n\n<a id=\"" + ("profile-" + x) == "\n\n<a id=\"profile-" + x
  {
  }

  /** The profile files `nadya.md` and `sasha.md` get the anchors their README links are rewritten to. */
  lemma ProfileAnchorMatchesLink(root: string, name: string)
    requires name == "nadya" || name == "sasha"
    ensures "#" + ProfileAnchorId(Basename(Join(Directory(root, Profiles), name + ".md")))
         == HrefText(ProfileAnchor(name))
  {
    FixedProfileName(name);
    var path := Join(Directory(root, Profiles), name + ".md");
    BasenameOfJoin(Directory(root, Profiles), name + ".md");
    StemOfFile(path, name);
    ProfilePrefixText(name);
  }

  /**
   * A profile block: the anchor is "profile-" and the lower-cased name, with no
   * run collapsing, and the heading shows the name as it is written.
   */
  lemma ProfileBlockShape(path: string, name: string, content: string)
    requires Basename(path) == name + ".md" && !Contains(name, ".md")
    ensures Block(Profiles, path, content)
         == "\n\n<a id=\"profile-" + Lower(name) + "\"></a>\n" + ProfileHeading + name + "\n\n" + content
  {
    StemOfFile(path, name);
    ProfileBlockText(path, content);
  }

  /**
   * A profile block for any path, written out: the anchor is "profile-" and
   * the lower-cased stem, the heading shows the stem. The stem is what
   * `replace('.md', '')` leaves, so for `a.mdb.md` both show `ab.md`.
   */
  lemma ProfileBlockText(path: string, content: string)
    ensures Block(Profiles, path, content)
         == "\n\n<a id=\"profile-" + Lower(Stem(Basename(path))) + "\"></a>\n" + ProfileHeading
            + Stem(Basename(path)) + "\n\n" + content
  {
    ProfilePrefixText(Lower(Stem(Basename(path))));
  }

  /**
   * The profile file `a.mdb.md`: `replace('.md', '')` removes the inner
   * ".md", so anchor and heading both show `ab.md`, not `a.mdb`.
   */
  lemma ProfileBlockInnerMd(dir: string, content: string)
    ensures Block(Profiles, Join(dir, "a.mdb.md"), content)
         == "\n\n<a id=\"profile-ab.md\"></a>\n" + ProfileHeading + "ab.md\n\n" + content
  {
    var path := Join(dir, "a.mdb.md");
    BasenameOfJoin(dir, "a.mdb.md");
    RemoveFirstIsNotSuffixStrip();
    LowerAbMd();
    ProfileBlockOfStem(path, "ab.md", content);
    InnerMdText(content);
  }

  /** A profile block whose stem is already lower-case shows that stem twice. */
  lemma ProfileBlockOfStem(path: string, stem: string, content: string)
    requires Stem(Basename(path)) == stem && Lower(stem) == stem
    ensures Block(Profiles, path, content)
         == "\n\n<a id=\"profile-" + stem + "\"></a>\n" + ProfileHeading + stem + "\n\n" + content
  {
    ProfileBlockText(path, content);
  }

  /** The stem `ab.md` has no upper-case letter. */
  lemma LowerAbMd()
    ensures Lower("ab.md") == "ab.md"
  {
    var s := "ab.md";
    assert s == ['a', 'b', '.', 'm', 'd'];
    forall i | 0 <= i < |s|
      ensures !IsUpper(s[i])
    {
    }
    LowerIdentity(s);
  }

  /** Regroups the literal parts of the `a.mdb.md` profile block. */
  lemma InnerMdText(content: string)
    ensures "\n\n<a id=\"profile-" + "ab.md" + "\"></a>\n" + ProfileHeading + "ab.md" + "\n\n" + content
         == "\n\n<a id=\"profile-ab.md\"></a>\n" + ProfileHeading + "ab.md\n\n" + content
  {
  }

  /**
   * A situation block for any path, written out: the anchor is the slug of
   * the stem, the heading is `## ` and the stem.
   */
  lemma SituationBlockText(path: string, content: string)
    ensures Block(Situations, path, content)
         == "\n\n<a id=\"" + Slug(Stem(Basename(path))) + "\"></a>\n## " + Stem(Basename(path)) + "\n\n" + content
  {
    SituationHeadText(Slug(Stem(Basename(path))), Stem(Basename(path)));
  }

  /** A situation block: the anchor is the slug of the name, the heading is the name. */
  lemma SituationBlockShape(path: string, name: string, content: string)
    requires Basename(path) == name + ".md" && !Contains(name, ".md")
    ensures Block(Situations, path, content)
         == "\n\n<a id=\"" + Slug(name) + "\"></a>\n## " + name + "\n\n" + content
  {
    StemOfFile(path, name);
    SituationBlockText(path, content);
  }

  /** Regroups the literal parts of a situation block head. */
  lemma SituationHeadText(x: string, y: string)
    ensures "\n\n<a id=\"" + x + "\"></a>\n" + "## " + y + "\n\n" == "\n\n<a id=\"" + x + "\"></a>\n## " + y + "\n\n"
  {
  }

  // ---------------------------------------------------------------------
  // A worked example: a README, two situations and no profiles directory.

  function ExampleTree(root: string): Tree {
    Tree(root, Some(["a.md", "b.md"]), None,
         map[ReadmePath(root) := "# Title",
             Join(Directory(root, Situations), "a.md") := "A",
             Join(Directory(root, Situations), "b.md") := "B"])
  }

  lemma ExampleListing(root: string)
    ensures Listed(ExampleTree(root), Situations)
         == [Join(Directory(root, Situations), "a.md"), Join(Directory(root, Situations), "b.md")]
    ensures Listed(ExampleTree(root), Profiles) == []
  {
    var dir := Directory(root, Situations);
    var names := ["a.md", "b.md"];
    var s := [Join(dir, "a.md"), Join(dir, "b.md")];
    assert EndsWith("a.md", ".md") && EndsWith("b.md", ".md");
    assert MarkdownNames(names) == names by {
      assert names[1..] == ["b.md"];
      assert MarkdownNames(["b.md"]) == ["b.md"] by {
        assert ["b.md"][1..] == [];
      }
    }
    assert JoinAll(dir, names) == s;
    assert LessEq("a.md", "b.md");
    LessEqCommonPrefix(dir + "/", "a.md", "b.md");
    assert Sorted(s);
    GetMarkdownFilesIsTheSort(dir, names, s);
  }

  lemma ExampleFiles(root: string)
    ensures var files := ExampleTree(root).files;
            var a, b := Join(Directory(root, Situations), "a.md"), Join(Directory(root, Situations), "b.md");
            a in files && b in files && files[a] == "A" && files[b] == "B"
            && ReadmePath(root) in files && files[ReadmePath(root)] == "# Title"
  {
    var a, b := Join(Directory(root, Situations), "a.md"), Join(Directory(root, Situations), "b.md");
    assert |a| == |b| && |ReadmePath(root)| != |a|;
    assert a[|a| - 4] == 'a' && b[|b| - 4] == 'b';
  }

  lemma ExampleReadme(root: string)
    ensures ReadmePart(ExampleTree(root)) == "# Title"
  {
    ExampleFiles(root);
    AppendNil("# Title");
    ReadmePlainText("# Title", "");
    RewriteEmpty(Nadya);
    RewriteEmpty(Sasha);
    RewriteEmpty(SituationPass);
  }

  lemma TwoBlocks(g: Group, a: string, b: string, files: map<string, string>)
    requires a in files && b in files
    ensures Blocks(g, [a, b], files) == Success(Block(g, a, files[a]) + Block(g, b, files[b]))
  {
    assert [a] + [b] == [a, b];
    assert Readable([a, b], files, 2);
    BlocksAppend(g, [a], [b], files);
    OneBlock(g, a, files);
    OneBlock(g, b, files);
  }

  lemma OneBlock(g: Group, a: string, files: map<string, string>)
    requires a in files
    ensures Blocks(g, [a], files) == Success(Block(g, a, files[a]))
  {
    assert [a][1..] == [];
    AppendNil(Block(g, a, files[a]));
  }

  /**
   * README "# Title", situations `a.md` ("A") and `b.md` ("B"), no profiles:
   * the document is the README, the situations separator and the two blocks,
   * and no profiles section at all.
   */
  lemma ExampleDocument(root: string)
    ensures var a, b := Join(Directory(root, Situations), "a.md"), Join(Directory(root, Situations), "b.md");
            Generate(ExampleTree(root))
            == Success("# Title" + (Separator(SituationsTitle) + (Block(Situations, a, "A") + Block(Situations, b, "B"))))
  {
    var t := ExampleTree(root);
    var a, b := Join(Directory(root, Situations), "a.md"), Join(Directory(root, Situations), "b.md");
    ExampleListing(root);
    ExampleFiles(root);
    ExampleReadme(root);
    TwoBlocks(Situations, a, b, t.files);
    AppendNil("# Title" + (Separator(SituationsTitle) + (Block(Situations, a, "A") + Block(Situations, b, "B"))));
  }
}

=== FILE: strings.dfy ===
/**
 * The string primitives the report generator relies on: JavaScript's
 * `endsWith`, `indexOf` and first-occurrence `replace`, a restricted
 * `toLowerCase`, `path.basename`, and the code-unit order used by
 * `Array.prototype.sort`.
 */
module Strings {
  import opened Wrappers

  /** `s.endsWith(suffix)`. */
  predicate EndsWith(s: string, suffix: string) {
    |suffix| <= |s| && s[|s| - |suffix|..] == suffix
  }

  /** `pat` occurs in `s` starting at index `k`. */
  predicate OccursAt(s: string, pat: string, k: int) {
    0 <= k && k + |pat| <= |s| && s[k..k + |pat|] == pat
  }

  predicate Contains(s: string, pat: string) {
    exists k :: 0 <= k <= |s| && OccursAt(s, pat, k)
  }

  /** `k` is the leftmost occurrence of `pat` in `s`. */
  predicate FirstOccurrence(s: string, pat: string, k: int) {
    OccursAt(s, pat, k) && forall j :: 0 <= j < k ==> !OccursAt(s, pat, j)
  }

  /** Leftmost occurrence of `pat` in `s` at or after `from`. */
  function IndexFrom(s: string, pat: string, from: nat): (r: Option<nat>)
    ensures r.Some? ==> from <= r.value && OccursAt(s, pat, r.value)
    ensures r.Some? ==> forall j :: from <= j < r.value ==> !OccursAt(s, pat, j)
    ensures r.None? ==> forall j :: from <= j ==> !OccursAt(s, pat, j)
    decreases |s| - from
  {
    if from + |pat| > |s| then None
    else if s[from..from + |pat|] == pat then Some(from)
    else IndexFrom(s, pat, from + 1)
  }

  /** `s.indexOf(pat)`, with `None` for -1. */
  function IndexOf(s: string, pat: string): (r: Option<nat>)
    ensures r.Some? <==> Contains(s, pat)
    ensures r.Some? ==> FirstOccurrence(s, pat, r.value)
  {
    IndexFrom(s, pat, 0)
  }

  /** `s.replace(pat, '')` with a string pattern: only the FIRST occurrence goes. */
  function RemoveFirst(s: string, pat: string): (r: string)
    ensures !Contains(s, pat) ==> r == s
    ensures forall k :: FirstOccurrence(s, pat, k) ==> r == s[..k] + s[k + |pat|..]
    ensures Contains(s, pat) ==> |r| == |s| - |pat|
  {
    match IndexOf(s, pat)
    case None => s
    case Some(k) =>
      assert forall k' :: FirstOccurrence(s, pat, k') ==> k' == k;
      s[..k] + s[k + |pat|..]
  }

  /**
   * A file name `n + ".md"` whose stem contains no ".md" loses exactly its
   * extension: an occurrence cannot straddle the stem and the extension,
   * because '.' is neither 'm' nor 'd'.
   */
  lemma RemoveFirstOfExtension(n: string)
    requires !Contains(n, ".md")
    ensures RemoveFirst(n + ".md", ".md") == n
  {
    var s := n + ".md";
    assert OccursAt(s, ".md", |n|);
    forall j | 0 <= j < |n|
      ensures !OccursAt(s, ".md", j)
    {
      if j + 3 <= |n| {
        assert s[j..j + 3] == n[j..j + 3];
        assert !OccursAt(n, ".md", j);
      } else if j == |n| - 1 {
        assert s[j..j + 3][1] == s[|n|] == '.';
      } else {
        assert s[j..j + 3][2] == s[|n|] == '.';
      }
    }
    assert FirstOccurrence(s, ".md", |n|);
    assert s[..|n|] == n;
  }

  /** Index of the first `c` in `s`. */
  function FindChar(s: string, c: char): (r: Option<nat>)
    ensures r.Some? ==> r.value < |s| && s[r.value] == c
    ensures r.Some? ==> forall j :: 0 <= j < r.value ==> s[j] != c
    ensures r.None? ==> forall j :: 0 <= j < |s| ==> s[j] != c
  {
    if s == [] then None
    else if s[0] == c then Some(0)
    else match FindChar(s[1..], c)
      case None => None
      case Some(k) => Some(k + 1)
  }

  /** The first `c` is the only one with no `c` before it. */
  lemma FindCharIs(s: string, c: char, k: nat)
    requires k < |s| && s[k] == c
    requires forall j :: 0 <= j < k ==> s[j] != c
    ensures FindChar(s, c) == Some(k)
  {
  }

  /** `replace('.md', '')` removes an inner ".md" rather than the extension. */
  lemma RemoveFirstIsNotSuffixStrip()
    ensures RemoveFirst("a.mdb.md", ".md") == "ab.md"
  {
    var s := "a.mdb.md";
    assert !OccursAt(s, ".md", 0) by { assert s[0..3][0] == 'a'; }
    assert FirstOccurrence(s, ".md", 1);
    assert s[..1] + s[4..] == "ab.md";
  }

  // ---------------------------------------------------------------------
  // Lower-casing, restricted to ASCII and the basic Cyrillic alphabet.

  /** The upper-case letters the model lower-cases: A-Z, А-Я and Ё. */
  predicate IsUpper(c: char) {
    ('A' <= c <= 'Z') || ('\U{0410}' <= c <= '\U{042F}') || c == '\U{0401}'
  }

  /** The lower-case form of one character: each letter moves 32 code points up, and Ё goes to ё. */
  function LowerChar(c: char): (r: char)
    ensures ('A' <= c <= 'Z' || '\U{0410}' <= c <= '\U{042F}') ==> r as int == c as int + 32
    ensures c == '\U{0401}' ==> r == '\U{0451}'
    ensures IsUpper(c) ==> !IsUpper(r) && r != c
    ensures !IsUpper(c) ==> r == c
    ensures 'A' <= c <= 'Z' ==> 'a' <= r <= 'z'
    ensures '\U{0410}' <= c <= '\U{042F}' ==> '\U{0430}' <= r <= '\U{044F}'
  {
    if 'A' <= c <= 'Z' then (c as int + 32) as char
    else if '\U{0410}' <= c <= '\U{042F}' then (c as int + 32) as char
    else if c == '\U{0401}' then '\U{0451}'
    else c
  }

  /** `s.toLowerCase()` as a length-preserving character map. */
  function Lower(s: string): (r: string)
    ensures |r| == |s|
    ensures forall i :: 0 <= i < |s| ==> r[i] == LowerChar(s[i])
  {
    seq(|s|, i requires 0 <= i < |s| => LowerChar(s[i]))
  }

  lemma LowerIdempotent(s: string)
    ensures Lower(Lower(s)) == Lower(s)
  {
  }

  /** A string with no upper-case letter is its own lower-case form. */
  lemma LowerIdentity(s: string)
    requires forall i :: 0 <= i < |s| ==> !IsUpper(s[i])
    ensures Lower(s) == s
  {
  }

  // ---------------------------------------------------------------------
  // Concatenation facts, kept apart from the functions that use them.

  lemma AppendAssoc<T>(x: seq<T>, y: seq<T>, z: seq<T>)
    ensures (x + y) + z == x + (y + z)
  {
  }

  lemma AppendParts<T>(a: seq<T>, b: seq<T>)
    ensures forall j :: 0 <= j < |a| ==> (a + b)[j] == a[j]
    ensures forall j :: 0 <= j < |b| ==> (a + b)[|a| + j] == b[j]
    ensures a != [] ==> (a + b)[1..] == a[1..] + b && [a[0]] + (a[1..] + b) == a + b
    ensures (a + b)[|a|..] == b && (a + b)[..|a|] == a
  {
  }

  lemma AppendNil<T>(s: seq<T>)
    ensures s + [] == s && [] + s == s
  {
  }

  /** An occurrence survives text added on either side. */
  lemma ContainsExtend(s: string, pat: string, x: string)
    requires Contains(s, pat)
    ensures Contains(x + s, pat) && Contains(s + x, pat)
  {
    var k :| 0 <= k <= |s| && OccursAt(s, pat, k);
    assert (x + s)[|x| + k..|x| + k + |pat|] == s[k..k + |pat|];
    assert OccursAt(x + s, pat, |x| + k);
    assert (s + x)[k..k + |pat|] == s[k..k + |pat|];
    assert OccursAt(s + x, pat, k);
  }

  lemma ContainsSelf(s: string)
    ensures Contains(s, s)
  {
    assert OccursAt(s, s, 0);
  }

  lemma TakeAll<T>(s: seq<T>)
    ensures s[..|s|] == s
  {
  }

  lemma SplitAt<T>(s: seq<T>, i: nat)
    requires i < |s|
    ensures s == s[..i] + ([s[i]] + s[i + 1..])
    ensures s[..i + 1] == s[..i] + [s[i]]
  {
  }

  // ---------------------------------------------------------------------
  // Paths.

  /** `path.join(dir, name)` for a listing entry. */
  function Join(dir: string, name: string): (r: string)
    ensures |r| == |dir| + 1 + |name|
    ensures r[..|dir|] == dir && r[|dir|] == '/' && r[|dir| + 1..] == name
  {
    dir + "/" + name
  }

  /** `path.basename(p)`: everything after the last '/'. */
  function Basename(p: string): (r: string)
    ensures '/' !in r
    ensures EndsWith(p, r)
    ensures |r| < |p| ==> p[|p| - |r| - 1] == '/'
  {
    if p == [] then []
    else if p[|p| - 1] == '/' then []
    else
      var q := p[..|p| - 1];
      var b := Basename(q);
      BasenameStep(q, b, p[|p| - 1]);
      SplitAt(p, |p| - 1);
      TakeAll(p);
      b + [p[|p| - 1]]
  }

  /** One more character other than '/' extends the base name found so far. */
  lemma BasenameStep(q: string, b: string, c: char)
    requires '/' !in b && c != '/'
    requires EndsWith(q, b) && (|b| < |q| ==> q[|q| - |b| - 1] == '/')
    ensures '/' !in b + [c]
    ensures EndsWith(q + [c], b + [c])
    ensures |b| < |q| ==> (q + [c])[|q| - |b| - 1] == '/'
  {
    assert (q + [c])[|q| - |b|..] == q[|q| - |b|..] + [c];
  }

  /** The base name of a joined listing entry is the entry itself. */
  lemma {:induction false} BasenameOfJoin(dir: string, name: string)
    requires '/' !in name
    ensures Basename(Join(dir, name)) == name
  {
    var p := Join(dir, name);
    if name != [] {
      var name' := name[..|name| - 1];
      assert p[..|p| - 1] == Join(dir, name');
      BasenameOfJoin(dir, name');
      assert name == name' + [name[|name| - 1]];
    }
  }

  // ---------------------------------------------------------------------
  // The default order of `Array.prototype.sort` on strings: UTF-16 code units.

  /**
   * The position of a character in code-unit order. Characters U+E000..U+FFFF
   * are one code unit above every surrogate, so they sort after all characters
   * beyond U+FFFF; every other character keeps its scalar value.
   */
  function CodeUnitRank(c: char): (r: int)
    ensures c as int < 0xD800 ==> r == c as int
    ensures 0x10000 <= c as int ==> r == c as int
    ensures 0xE000 <= c as int < 0x10000 ==> r > 0x10FFFF
  {
    if 0xE000 <= c as int <= 0xFFFF then c as int + 0x110000 else c as int
  }

  /** `a <= b` in lexicographic code-unit order; a proper prefix comes first. */
  predicate LessEq(a: string, b: string)
    decreases |a|
  {
    if a == [] then true
    else if b == [] then false
    else if a[0] != b[0] then CodeUnitRank(a[0]) < CodeUnitRank(b[0])
    else LessEq(a[1..], b[1..])
  }

  lemma {:induction false} LessEqReflexive(a: string)
    ensures LessEq(a, a)
    decreases |a|
  {
    if a != [] {
      LessEqReflexive(a[1..]);
    }
  }

  lemma {:induction false} LessEqTotal(a: string, b: string)
    ensures LessEq(a, b) || LessEq(b, a)
    decreases |a|
  {
    if a != [] && b != [] && a[0] == b[0] {
      LessEqTotal(a[1..], b[1..]);
    }
  }

  lemma {:induction false} LessEqAntisymmetric(a: string, b: string)
    requires LessEq(a, b) && LessEq(b, a)
    ensures a == b
    decreases |a|
  {
    if a != [] && b != [] {
      LessEqAntisymmetric(a[1..], b[1..]);
      assert a == [a[0]] + a[1..];
      assert b == [b[0]] + b[1..];
    }
  }

  lemma {:induction false} LessEqTransitive(a: string, b: string, c: string)
    requires LessEq(a, b) && LessEq(b, c)
    ensures LessEq(a, c)
    decreases |a|
  {
    if a != [] && b != [] && c != [] && a[0] == b[0] && b[0] == c[0] {
      LessEqTransitive(a[1..], b[1..], c[1..]);
    }
  }

  /** A common prefix does not change the order of two strings. */
  lemma {:induction false} LessEqCommonPrefix(p: string, a: string, b: string)
    ensures LessEq(p + a, p + b) == LessEq(a, b)
    decreases |p|
  {
    var pa, pb := p + a, p + b;
    if p == [] {
      assert pa == a && pb == b;
    } else {
      assert pa[0] == pb[0] == p[0];
      assert pa[1..] == p[1..] + a;
      assert pb[1..] == p[1..] + b;
      LessEqCommonPrefix(p[1..], a, b);
    }
  }

  // ---------------------------------------------------------------------
  // The same order, stated on the UTF-16 encoding itself.

  /** The UTF-16 code units of one character. */
  function Utf16Char(c: char): (r: seq<int>)
    ensures 1 <= |r| <= 2
    ensures |r| == 1 <==> c as int < 0x10000
  {
    if c as int < 0x10000 then [c as int]
    else [0xD800 + (c as int - 0x10000) / 0x400, 0xDC00 + (c as int - 0x10000) % 0x400]
  }

  /** The UTF-16 code units of a string, as JavaScript stores it. */
  function Utf16(s: string): (r: seq<int>)
    ensures |s| <= |r| <= 2 * |s|
  {
    if s == [] then [] else Utf16Char(s[0]) + Utf16(s[1..])
  }

  /** Lexicographic order on code-unit sequences, as the default sort compares. */
  predicate UnitsLessEq(a: seq<int>, b: seq<int>)
    decreases |a|
  {
    if a == [] then true
    else if b == [] then false
    else if a[0] != b[0] then a[0] < b[0]
    else UnitsLessEq(a[1..], b[1..])
  }

  lemma {:induction false} UnitsCommonPrefix(p: seq<int>, a: seq<int>, b: seq<int>)
    ensures UnitsLessEq(p + a, p + b) == UnitsLessEq(a, b)
    decreases |p|
  {
    var pa, pb := p + a, p + b;
    if p == [] {
      assert pa == a && pb == b;
    } else {
      assert pa[0] == pb[0] == p[0];
      assert pa[1..] == p[1..] + a;
      assert pb[1..] == p[1..] + b;
      UnitsCommonPrefix(p[1..], a, b);
    }
  }

  /** Two different characters are ordered by their first differing code unit as by their rank. */
  lemma CharUnitsOrder(c: char, d: char, x: seq<int>, y: seq<int>)
    requires c != d
    ensures UnitsLessEq(Utf16Char(c) + x, Utf16Char(d) + y) == (CodeUnitRank(c) < CodeUnitRank(d))
  {
    var u, v := Utf16Char(c) + x, Utf16Char(d) + y;
    assert u[0] == Utf16Char(c)[0] && v[0] == Utf16Char(d)[0];
    if c as int >= 0x10000 && d as int >= 0x10000 && u[0] == v[0] {
      assert u[1..] == [Utf16Char(c)[1]] + x;
      assert v[1..] == [Utf16Char(d)[1]] + y;
      assert u[1] != v[1];
    }
  }

  /** `LessEq` is exactly the lexicographic order of the UTF-16 encodings. */
  lemma {:induction false} LessEqIsUtf16Order(a: string, b: string)
    ensures LessEq(a, b) == UnitsLessEq(Utf16(a), Utf16(b))
    decreases |a|
  {
    if a != [] && b != [] {
      if a[0] == b[0] {
        UnitsCommonPrefix(Utf16Char(a[0]), Utf16(a[1..]), Utf16(b[1..]));
        LessEqIsUtf16Order(a[1..], b[1..]);
      } else {
        CharUnitsOrder(a[0], b[0], Utf16(a[1..]), Utf16(b[1..]));
      }
    }
  }
}

=== FILE: wrappers.dfy ===
/** Optional values and results, used across the model. */
module Wrappers {

  /** An optional value: a file or directory that may be absent. */
  datatype Option<+T> = None | Some(value: T)

  /** The outcome of an operation that can throw in `generate-report.js`. */
  datatype Result<+R, +E> = Success(value: R) | Failure(error: E)
}
